=== FILE: README.md ===
# Warehouse monitoring core, modelled in Dafny

The system watches refrigerated warehouses. Each warehouse has a
configuration: a name, an owner, and temperature and humidity limits.
Sensor readings arrive for each warehouse. A reading is checked against
the limits. Out-of-range dimensions become alerts, graded INFO, WARNING,
HIGH or CRITICAL by how far they overshoot. The alerts are stored and
routed to users. User notifications depend on role, assigned warehouses
and notification preferences. Every reading is also kept as an analytics
sample, per date. A daily report aggregates those samples. A weekly
cleanup deletes data older than 30 days.

The model covers the decision logic and leaves out the I/O around it:

| file | module | what it models |
|---|---|---|
| `common.dfy` | `Common` | `null` as `Option`; the loosely typed values read back from the document store; `longValue()` truncation |
| `users.dfy` | `Users` | the `User` record, roles and their permission table, warehouse assignment, notification preferences, validity, and loading the user cache from stored records |
| `warehouse.dfy` | `Warehouse` | the warehouse configuration and sensor reading records and their validators |
| `alerts.dfy` | `Alerts` | alert classification, per-alert severity and overall severity |
| `routing.dfy` | `Routing` | who is notified of an alert |
| `config_cache.dfy` | `ConfigCache` | the added, changed and removed handlers for warehouse configs, and the audit diff |
| `processing.dfy` | `Processing` | the handling of one reading, as the list of store writes it intends, and their effect on warehouse status |
| `retention.dfy` | `Retention` | what a cleanup run deletes |
| `reports.dfy` | `Reports` | the daily report aggregation |

Modelling choices:

- **Types.** Java `double` is `real`, and Java `long` and `int` are `int`.
- **Store writes.** A store write is a value of the `Write` datatype, not an effect. `ProcessSensorReading` returns the writes in the order the code issues them.
- **Iteration order.** The user cache is a `ConcurrentHashMap`, so its iteration order is unspecified. The model takes that order as an explicit parameter (`order`).
- **Date fields.** The date key, hour of day and day of week of a timestamp depend on the JVM's default time zone. They are fields of a `Calendar` parameter.
- **Owner notifications.** The warehouse owner is notified without checking their assigned warehouses.
- **The clock.** The current time is a parameter (`now`).
- **Role names.** `equalsIgnoreCase` is modelled against lower-case ASCII targets only, which covers the role names `admin`, `operator` and `viewer`. A character matches a target letter when it is that letter or its upper case. It also matches when Java's case mapping of the character lands on that letter. Among the letters of the role names, only `i` has such non-ASCII matches: U+0131, whose upper case is `I`, and U+0130, whose lower case is `i`. The model also lists U+212A for `k` and U+017F for `s`, which no role name contains.

Where the code and its design description part ways, the model follows the code:

- **Configs with no owner.** If the config has no owner id, the lookup `ConcurrentHashMap.get(null)` throws. The surrounding handler swallows the exception, so the alert is stored but nobody is notified.
- **Unassigning a warehouse.** `unassignWarehouse` removes only the first occurrence of the id.
- **Report reading count.** The reading count in the daily report counts only records that have a numeric temperature. It is not the number of stored samples.
- **Loaded preferences.** A user loaded from the store gets the stored preference map in place of the constructor defaults. A user with no stored map gets an empty one, which accepts every notification.

## Model

| member | source | states |
|---|---|---|
| Common.LongValue | src/main/java/WarehouseMonitoringSystem.java:1011-1012 | `Number.longValue()` of a double truncates toward zero: the result is within one of the input, on the zero side |
| Common.NumberField | src/main/java/WarehouseMonitoringSystem.java:857-866 | an `instanceof Number` field read yields a number exactly when the field is present and numeric, and yields that number |
| Users.RoleFromString | src/main/java/User.java:40-47 | `fromString` returns ADMIN exactly for a case-insensitive "admin" and OPERATOR exactly for "operator"; anything else, null included, falls back to VIEWER |
| Users.RoleValueRoundTrip | src/main/java/User.java:19-47 | parsing a role's stored value, in lower or upper case, gives the role back |
| Users.ParsePermission | src/main/java/User.java:207-219 | the nine permission names map to their permissions and every other string to none |
| Users.PermissionsMonotone | src/main/java/User.java:49-84 | the permission table is monotone in role priority: VIEWER may only view reports, ADMIN may do everything, and a higher-priority role allows all a lower one does |
| Users.NewUser | src/main/java/User.java:130-155 | a constructed user is active, has no assignments, and has the default preferences: email, critical and warning alerts on; daily reports and weekly summary off; anything else on |
| Users.RoleString | src/main/java/User.java:169-171 | the stored role string is the role's value, or the literal "viewer" when the role is null, and it parses back to the role (VIEWER for null) |
| Users.SetRoleString | src/main/java/User.java:172-174 | setting the role from a string parses it with the VIEWER fallback, so the role is never null afterwards, and changes nothing else |
| Users.HasPermission | src/main/java/User.java:205-221 | a permission is granted exactly when the user is active, has a role, and the string names a permission that role allows |
| Users.CanAccessWarehouse | src/main/java/User.java:223-227 | admins and users with a null or empty assignment list may access every warehouse; anyone else only the assigned ones |
| Users.AssignWarehouse | src/main/java/User.java:230-237 | an id already in the list leaves the user unchanged; an absent id is appended at the end (a missing list becomes the one-element list); so the set of ids grows by exactly that id, a duplicate-free list stays duplicate-free, and nothing else changes |
| Users.AssignIdempotent | src/main/java/User.java:230-237 | assigning the same warehouse twice is the same as assigning it once |
| Users.UnassignWarehouse | src/main/java/User.java:240-244 | unassigning removes one occurrence of the id (the multiset loses one copy at most); on a duplicate-free list the id is then gone; a null list stays null |
| Users.UnassignLastWidensAccess | src/main/java/User.java:223-244 | removing the only assigned warehouse empties the list, which lifts every restriction |
| Users.UnassignKeepsDuplicate | src/main/java/User.java:240-244 | a list holding the id twice still holds it once after one unassign |
| Users.PreferenceSetGet | src/main/java/User.java:246-258 | a preference set on a user reads back as set; every other preference reads as before |
| Users.NewUserValidity | src/main/java/User.java:268-285 | a constructed user is valid exactly when uid, email and name are non-empty and the role is present; it is never locked |
| Users.LoadUser | src/main/java/WarehouseMonitoringSystem.java:176-213 | a stored record becomes a user exactly when it is non-null, its email, name and role casts succeed, and its preference and assignment children have the expected shape. The uid is the record's key, email and name are the stored strings, and the role is parsed with the VIEWER fallback. The user is active unless `isActive` is the boolean false. The stored preferences and assignments replace the defaults, and a missing child becomes empty |
| Users.LoadedUserWithoutPreferences | src/main/java/WarehouseMonitoringSystem.java:198-202 | a user loaded without stored preferences accepts every notification, unlike a constructed user |
| Users.LoadUserCache | src/main/java/WarehouseMonitoringSystem.java:168-219 | the rebuilt cache is keyed by uid and holds exactly the keys of the children that load |
| Users.LoadUserCacheValues | src/main/java/WarehouseMonitoringSystem.java:179-212 | the user cached under a key is the one built from the last child with that key that loads |
| Users.LoadUserCacheEntries | src/main/java/WarehouseMonitoringSystem.java:172-212 | with distinct child keys, as in a snapshot, every child that loads is cached under its key as exactly the user built from it |
| Warehouse.ValidateWarehouseConfig | src/main/java/WarehouseMonitoringSystem.java:305-335 | a config is valid exactly when its name is non-blank, min < max temperature within [-50, 50], and min < max humidity within [0, 100]; a valid config has positive ranges of at most 100 |
| Warehouse.ValidityIgnoresId | src/main/java/WarehouseMonitoringSystem.java:305-335 | validity does not depend on the id, so setting the id from the key never changes it |
| Warehouse.ValidateSensorReading | src/main/java/WarehouseMonitoringSystem.java:382-404 | a reading is valid exactly when its temperature is in [-60, 60], its humidity in [0, 100], and its timestamp at most one minute ahead of the clock |
| Warehouse.ReadingValidityMonotoneInClock | src/main/java/WarehouseMonitoringSystem.java:397-400 | a reading valid at one clock value stays valid at any later one |
| Alerts.DetermineSeverity | src/main/java/WarehouseMonitoringSystem.java:531-541 | the severity tier as division-free inequalities: CRITICAL above 50% of the allowed range, HIGH above 25%, WARNING above 10%, INFO otherwise |
| Alerts.SeverityMonotone | src/main/java/WarehouseMonitoringSystem.java:531-541 | a larger deviation never gets a lower severity |
| Alerts.CheckForAlerts | src/main/java/WarehouseMonitoringSystem.java:473-526 | one alert per out-of-range dimension, exactly for those dimensions, temperature first. Each alert carries the reading's timestamp, is unacknowledged, and has a positive deviation graded against that dimension's range |
| Alerts.NoAlertIffInRange | src/main/java/WarehouseMonitoringSystem.java:473-526 | there are no alerts exactly when both readings lie within their limits |
| Alerts.DetermineOverallSeverity | src/main/java/WarehouseMonitoringSystem.java:453-468 | no severity exactly for no alerts; otherwise the highest severity among the alerts |
| Routing.PreferenceKey | src/main/java/WarehouseMonitoringSystem.java:595-608 | CRITICAL consults `critical_alerts`, HIGH and WARNING consult `warning_alerts`, INFO `email_alerts`; each is on by default |
| Routing.NewUserNotifiedOfEveryAlert | src/main/java/WarehouseMonitoringSystem.java:595-608 | a constructed (active, default-preference) user passes the notification check for every alert |
| Routing.OtherRecipients | src/main/java/WarehouseMonitoringSystem.java:581-589 | the non-owner recipients are exactly the active, accessing, willing users other than the owner, without duplicates |
| Routing.Recipients | src/main/java/WarehouseMonitoringSystem.java:574-590 | the recipients are exactly the selected users, without duplicates and with the owner first; a config without an owner notifies nobody |
| Routing.RestrictedUserNotNotified | src/main/java/WarehouseMonitoringSystem.java:581-589 | a non-admin, non-owner user restricted to other warehouses is never notified |
| ConfigCache.ConfigurationChanges | src/main/java/WarehouseMonitoringSystem.java:664-690 | the diff is empty exactly when name and the four limits agree, has at most five entries, reports each of the name and the four limits, with its old and new value, exactly when that field differs, and every entry is the change of the field it names |
| ConfigCache.ModificationEvents | src/main/java/WarehouseMonitoringSystem.java:685-689 | a modification is audited once exactly when an audited field changed |
| ConfigCache.UnauditedFieldsProduceNoEvent | src/main/java/WarehouseMonitoringSystem.java:664-690 | changing only location, type, owner or status writes no audit event |
| ConfigCache.HandleWarehouseAdded | src/main/java/WarehouseMonitoringSystem.java:230-256 | a null or invalid config changes nothing; a valid one is cached under its key with the key as id and audited; other keys are untouched; the cache invariant is kept |
| ConfigCache.HandleWarehouseUpdated | src/main/java/WarehouseMonitoringSystem.java:261-283 | a null or invalid update keeps the prior config; a valid one replaces the entry and is audited exactly when it replaced an entry whose audited fields differ, with the modification event of the old and new config; other keys are untouched |
| ConfigCache.HandleWarehouseRemoved | src/main/java/WarehouseMonitoringSystem.java:288-300 | the key is gone afterwards, other keys are untouched, and an audit event is written exactly when the key was cached |
| ConfigCache.InvariantPreserved | src/main/java/WarehouseMonitoringSystem.java:230-300 | from a well-formed cache, no stream of events admits an invalid config or files one under a key other than its id |
| ConfigCache.OtherKeysUntouched | src/main/java/WarehouseMonitoringSystem.java:230-300 | events for other warehouses leave a key's entry (or its absence) as it was |
| Processing.AlertWritesStoreEachAlert | src/main/java/WarehouseMonitoringSystem.java:546-562 | each alert is stored once, in order, under the warehouse with the config's name |
| Processing.AlertWritesNotifyRecipients | src/main/java/WarehouseMonitoringSystem.java:546-570 | a user is notified of an alert exactly when the alert was raised and the router selects the user for it |
| Processing.ProcessSensorReading | src/main/java/WarehouseMonitoringSystem.java:409-448 | an unknown warehouse writes nothing. Otherwise the reading writes: every alert, one status (alert if there were alerts, normal if not), the reading's timestamp, and one analytics sample under the reading's date |
| Processing.ProcessedReadingNotifications | src/main/java/WarehouseMonitoringSystem.java:425-428 | every notification written goes to a selected recipient of one of the reading's alerts |
| Processing.OnSensorReading | src/main/java/WarehouseMonitoringSystem.java:345-357 | the callback writes something exactly when the reading is non-null, valid against the clock, and for a cached warehouse. It then writes one status, the one the reading's alerts call for, the reading's timestamp, and one analytics sample |
| Processing.ApplyIsOverride | src/main/java/WarehouseMonitoringSystem.java:430-440 | applying status writes overrides each warehouse's status with its last write |
| Processing.ReprocessingKeepsStatus | src/main/java/WarehouseMonitoringSystem.java:430-440 | the status written is "alert" exactly when there were alerts, and applying a reading's writes twice leaves the status as once |
| Retention.StringLessStrictTotal | src/main/java/WarehouseMonitoringSystem.java:973-975 | `compareTo(...) < 0` on date keys is a strict total order |
| Retention.SweepItems | src/main/java/WarehouseMonitoringSystem.java:1005-1067 | a sweep deletes exactly the scanned items that have expired, and no more items than it scanned |
| Retention.SweepPartitions | src/main/java/WarehouseMonitoringSystem.java:968-983 | the analytics sweep deletes exactly the date partitions whose key sorts before the cutoff date |
| Retention.RetentionSweep | src/main/java/WarehouseMonitoringSystem.java:938-965 | one cleanup deletes the partitions before the cutoff date, the alerts with a numeric timestamp before the cutoff, and the read notifications with a numeric timestamp before the cutoff |
| Retention.UnreadNotificationsSurvive | src/main/java/WarehouseMonitoringSystem.java:1048-1063 | an unread notification is never deleted, however old; a read expired one always is |
| Retention.AcknowledgementIrrelevant | src/main/java/WarehouseMonitoringSystem.java:1008-1020 | whether an alert was acknowledged does not affect its deletion |
| Retention.SweepIdempotent | src/main/java/WarehouseMonitoringSystem.java:938-1077 | a second sweep with the same cutoff deletes nothing of what the first one kept |
| Retention.Survivors | src/main/java/WarehouseMonitoringSystem.java:1005-1067 | a sweep keeps exactly the scanned items that have not expired, and kept plus deleted account for every scanned item |
| Retention.ExpiryMonotone | src/main/java/WarehouseMonitoringSystem.java:998-1077 | a record expired at one cutoff is expired at any later cutoff |
| Reports.CriticalAlertCount | src/main/java/WarehouseMonitoringSystem.java:868-873 | critical alerts are counted among the alerts, so there are never more critical alerts than alerts |
| Reports.AverageBetween | src/main/java/WarehouseMonitoringSystem.java:876-882 | the average of a non-empty series lies between its minimum and maximum |
| Reports.GenerateWarehouseReport | src/main/java/WarehouseMonitoringSystem.java:838-906 | no report unless some record has a numeric temperature. The reading count is the number of such records, the alert and critical counts are the numbers of records with `hasAlert` true and, among them, `severity` "CRITICAL", so critical ≤ alerts ≤ non-null records. The minima and maxima are members of the series and bound it, and each average lies between them. The humidity statistics are 0 without numeric humidities |
| Reports.StoredSamplesReadBack | src/main/java/WarehouseMonitoringSystem.java:635-659 | reading back the records written for samples yields exactly their temperatures and humidities, in order |
| Reports.StoredSamplesAlertCounts | src/main/java/WarehouseMonitoringSystem.java:868-873 | the alert and critical counts read back from written samples are the number of alerting samples and of alerting samples whose overall severity is CRITICAL |
| Reports.ReportOfWrittenSamples | src/main/java/WarehouseMonitoringSystem.java:838-906 | a report over a day's written samples counts every sample as a reading and has the samples' alert and critical counts |

## Left out

- Connecting to the document store, the retry loop of its initialisation, listener registration, executors and schedules are not modelled. The same goes for logging and the actual writes, and for the error wrappers beyond their effect of skipping the failed step.
- Sensor simulation (`generateSensorData`, `startSensorSimulation`), `getSystemHealth`, `ensureAdminExists` and the report scheduling delay are not modelled: they are driven by randomness or the clock, or only report.
- The RMI server, client and remote interface and `AdminInitializer` are outside the core and are not modelled.
- `AuditInfo`, `recordLogin`, `getDisplayName`, `toString` and the created-at and last-login timestamps are bookkeeping that no decision reads, so they are not modelled.
- The message strings of alerts and reports (`%.2f` formatting) are not modelled: an alert carries the measured value, the violated limit and the deviation instead.
- Floating-point rounding and NaN are not modelled: doubles are exact reals. Comparisons with NaN, which are always false in Java, are therefore not modelled.
- Reports.GenerateWarehouseReport: the averages are exact, whereas the code's floating-point average may differ from the exact one in the last bits.
- Integer overflow of `long` timestamps is not modelled.
- Retention.StoredItem and Reports.GenerateWarehouseReport: every stored child is taken to be a map. The typed reads of the report (WarehouseMonitoringSystem.java:856) and of the alert and notification sweeps (:1008, :1048) are not inside a per-child `try`. A child of another shape throws out of the whole callback, which abandons the rest of that report or sweep. That case is not modelled.
- The conversion of a timestamp into a date key, hour and day of week is a `Calendar` parameter. How the JVM's time zone does that conversion is not modelled.
- Users.RoleFromString: `equalsIgnoreCase` is modelled only against the lower-case ASCII role names. That is enough for `fromString` but is not a general case-insensitive comparison.
- Users.HasPermission: a null permission string makes the Java `switch` throw; the model takes a string, so that case is not modelled.
- A null uid is not modelled: a user's uid is always a string, as it is for every user the loader builds from a record key.
- `createdAt`/`lastLogin` fields read by the loader are not modelled (see bookkeeping above); a failed numeric cast there cannot occur because the code checks `instanceof Number` first.

=== FILE: alerts.dfy ===
/** The severity classifier: from a reading and a configuration, zero to two
    typed alerts, each with a severity tier taken from how far the value lies
    outside the allowed range, as a percentage of that range. */
module Alerts {
  import opened Common
  import opened Warehouse

  datatype Severity = Info | Warning | High | Critical

  /** Tier order INFO < WARNING < HIGH < CRITICAL; 0 is left for "no alert". */
  function Rank(s: Severity): nat {
    match s
    case Info => 1
    case Warning => 2
    case High => 3
    case Critical => 4
  }

  function SeverityName(s: Severity): string {
    match s
    case Info => "INFO"
    case Warning => "WARNING"
    case High => "HIGH"
    case Critical => "CRITICAL"
  }

  datatype AlertType = TemperatureLow | TemperatureHigh | HumidityLow | HumidityHigh

  predicate IsTemperature(t: AlertType) {
    t == TemperatureLow || t == TemperatureHigh
  }

  /** The three numbers the human-readable message is formatted from: the
      measured value, the bound it crossed, and the deviation. */
  datatype AlertMessage = AlertMessage(value: real, limit: real, deviation: real)

  /** An alert. Acknowledgement is set later by an external action. */
  datatype Alert = Alert(
    kind: AlertType,
    message: AlertMessage,
    severity: Severity,
    timestamp: int,
    acknowledged: bool)

  /** `d / range * 100 > k` stated without division, for a positive range. */
  lemma PercentAbove(d: real, range: real, k: real)
    requires range > 0.0
    ensures d / range * 100.0 > k <==> d * 100.0 > k * range
  {
    var q := d / range;
    assert q * range == d;
    if q * 100.0 > k {
      assert q * 100.0 * range > k * range;
    } else {
      assert q * 100.0 * range <= k * range;
    }
  }

  /** `determineSeverity`: pct = deviation / range * 100; strictly above 50 is
      CRITICAL, above 25 HIGH, above 10 WARNING, otherwise INFO. A percentage
      of exactly 50, 25 or 10 falls to the lower tier. */
  function DetermineSeverity(deviation: real, allowedRange: real): (s: Severity)
    requires allowedRange > 0.0
    ensures s == Critical <==> deviation * 100.0 > 50.0 * allowedRange
    ensures s == High <==> 25.0 * allowedRange < deviation * 100.0 <= 50.0 * allowedRange
    ensures s == Warning <==> 10.0 * allowedRange < deviation * 100.0 <= 25.0 * allowedRange
    ensures s == Info <==> deviation * 100.0 <= 10.0 * allowedRange
  {
    PercentAbove(deviation, allowedRange, 50.0);
    PercentAbove(deviation, allowedRange, 25.0);
    PercentAbove(deviation, allowedRange, 10.0);
    var pct := deviation / allowedRange * 100.0;
    if pct > 50.0 then Critical
    else if pct > 25.0 then High
    else if pct > 10.0 then Warning
    else Info
  }

  /** For a fixed range, a larger deviation never gets a lower tier. */
  lemma SeverityMonotone(d1: real, d2: real, allowedRange: real)
    requires allowedRange > 0.0
    requires d1 <= d2
    ensures Rank(DetermineSeverity(d1, allowedRange)) <= Rank(DetermineSeverity(d2, allowedRange))
  {
  }

  /** One dimension: below `lo` gives a LOW alert, above `hi` a HIGH alert,
      the closed range [lo, hi] none. */
  function DimensionAlert(value: real, lo: real, hi: real, low: AlertType, high: AlertType, timestamp: int)
    : (r: seq<Alert>)
    requires lo < hi
    requires low != high
    ensures |r| == if value < lo || value > hi then 1 else 0
    ensures low in Kinds(r) <==> value < lo
    ensures high in Kinds(r) <==> value > hi
    ensures forall a :: a in r ==>
              && (a.kind == low || a.kind == high)
              && a.timestamp == timestamp && !a.acknowledged && a.message.deviation > 0.0
              && a.severity == DetermineSeverity(a.message.deviation, hi - lo)
              && (a.kind == low ==> a.message == AlertMessage(value, lo, lo - value))
              && (a.kind == high ==> a.message == AlertMessage(value, hi, value - hi))
  {
    if value < lo then
      [Alert(low, AlertMessage(value, lo, lo - value), DetermineSeverity(lo - value, hi - lo), timestamp, false)]
    else if value > hi then
      [Alert(high, AlertMessage(value, hi, value - hi), DetermineSeverity(value - hi, hi - lo), timestamp, false)]
    else []
  }

  predicate HasRanges(c: WarehouseConfig) {
    c.minTemp < c.maxTemp && c.minHumidity < c.maxHumidity
  }

  /** The allowed range the alert's dimension is measured against. */
  function RangeFor(c: WarehouseConfig, t: AlertType): real {
    if IsTemperature(t) then c.maxTemp - c.minTemp else c.maxHumidity - c.minHumidity
  }

  /** The kinds present in a list of alerts. */
  function Kinds(alerts: seq<Alert>): set<AlertType> {
    set a | a in alerts :: a.kind
  }

  /** The members and kinds of a concatenation are those of its parts. */
  lemma ConcatMembers(t: seq<Alert>, h: seq<Alert>)
    ensures forall a :: a in t + h <==> a in t || a in h
    ensures Kinds(t + h) == Kinds(t) + Kinds(h)
  {
  }

  /** Each dimension's alert carries the reading's timestamp, is not yet
      acknowledged, and is graded against its own dimension's range. */
  lemma DimensionAlertsDescribed(c: WarehouseConfig, r: SensorReading)
    requires HasRanges(c)
    ensures forall a :: a in DimensionAlert(r.temperature, c.minTemp, c.maxTemp, TemperatureLow, TemperatureHigh, r.timestamp) ==>
              && a.timestamp == r.timestamp && !a.acknowledged && a.message.deviation > 0.0
              && a.severity == DetermineSeverity(a.message.deviation, RangeFor(c, a.kind))
    ensures forall a :: a in DimensionAlert(r.humidity, c.minHumidity, c.maxHumidity, HumidityLow, HumidityHigh, r.timestamp) ==>
              && a.timestamp == r.timestamp && !a.acknowledged && a.message.deviation > 0.0
              && a.severity == DetermineSeverity(a.message.deviation, RangeFor(c, a.kind))
  {
  }

  /** Each dimension's alert reports the measured value, the bound it
      crossed and the distance past that bound. */
  lemma DimensionAlertMessages(c: WarehouseConfig, r: SensorReading)
    requires HasRanges(c)
    ensures forall a :: a in DimensionAlert(r.temperature, c.minTemp, c.maxTemp, TemperatureLow, TemperatureHigh, r.timestamp) ==>
              match a.kind
              case TemperatureLow => a.message == AlertMessage(r.temperature, c.minTemp, c.minTemp - r.temperature)
              case TemperatureHigh => a.message == AlertMessage(r.temperature, c.maxTemp, r.temperature - c.maxTemp)
              case _ => false
    ensures forall a :: a in DimensionAlert(r.humidity, c.minHumidity, c.maxHumidity, HumidityLow, HumidityHigh, r.timestamp) ==>
              match a.kind
              case HumidityLow => a.message == AlertMessage(r.humidity, c.minHumidity, c.minHumidity - r.humidity)
              case HumidityHigh => a.message == AlertMessage(r.humidity, c.maxHumidity, r.humidity - c.maxHumidity)
              case _ => false
  {
  }

  /** How many of the two dimensions lie outside their closed range. */
  function OutOfRangeCount(c: WarehouseConfig, r: SensorReading): nat {
    (if r.temperature < c.minTemp || r.temperature > c.maxTemp then 1 else 0)
    + (if r.humidity < c.minHumidity || r.humidity > c.maxHumidity then 1 else 0)
  }

  /** `checkForAlerts`: temperature is evaluated before humidity, each
      independently. */
  function CheckForAlerts(c: WarehouseConfig, r: SensorReading): (alerts: seq<Alert>)
    requires HasRanges(c)
    ensures |alerts| == OutOfRangeCount(c, r) <= 2
    ensures TemperatureLow in Kinds(alerts) <==> r.temperature < c.minTemp
    ensures TemperatureHigh in Kinds(alerts) <==> r.temperature > c.maxTemp
    ensures HumidityLow in Kinds(alerts) <==> r.humidity < c.minHumidity
    ensures HumidityHigh in Kinds(alerts) <==> r.humidity > c.maxHumidity
    ensures forall i, j :: 0 <= i < j < |alerts| ==> IsTemperature(alerts[i].kind) && !IsTemperature(alerts[j].kind)
    ensures forall a :: a in alerts ==>
              && a.timestamp == r.timestamp
              && !a.acknowledged
              && a.message.deviation > 0.0
              && a.severity == DetermineSeverity(a.message.deviation, RangeFor(c, a.kind))
    ensures forall a :: a in alerts ==>
              match a.kind
              case TemperatureLow => a.message == AlertMessage(r.temperature, c.minTemp, c.minTemp - r.temperature)
              case TemperatureHigh => a.message == AlertMessage(r.temperature, c.maxTemp, r.temperature - c.maxTemp)
              case HumidityLow => a.message == AlertMessage(r.humidity, c.minHumidity, c.minHumidity - r.humidity)
              case HumidityHigh => a.message == AlertMessage(r.humidity, c.maxHumidity, r.humidity - c.maxHumidity)
  {
    var t := DimensionAlert(r.temperature, c.minTemp, c.maxTemp, TemperatureLow, TemperatureHigh, r.timestamp);
    var h := DimensionAlert(r.humidity, c.minHumidity, c.maxHumidity, HumidityLow, HumidityHigh, r.timestamp);
    ConcatMembers(t, h);
    DimensionAlertsDescribed(c, r);
    DimensionAlertMessages(c, r);
    t + h
  }

  /** A reading raises no alert exactly when both values lie in their closed ranges. */
  lemma NoAlertIffInRange(c: WarehouseConfig, r: SensorReading)
    requires HasRanges(c)
    ensures CheckForAlerts(c, r) == [] <==>
              c.minTemp <= r.temperature <= c.maxTemp && c.minHumidity <= r.humidity <= c.maxHumidity
  {
  }

  /** Some alert in the list has severity `s`. */
  predicate HasSeverity(alerts: seq<Alert>, s: Severity) {
    exists i :: 0 <= i < |alerts| && alerts[i].severity == s
  }

  /** `determineOverallSeverity`: NONE (here `None`) for no alerts, otherwise
      the highest tier present. */
  function DetermineOverallSeverity(alerts: seq<Alert>): (r: Option<Severity>)
    ensures r.None? <==> |alerts| == 0
    ensures r.Some? ==> exists i :: 0 <= i < |alerts| && alerts[i].severity == r.value
    ensures r.Some? ==> forall i :: 0 <= i < |alerts| ==> Rank(alerts[i].severity) <= Rank(r.value)
  {
    if |alerts| == 0 then None
    else if HasSeverity(alerts, Critical) then Some(Critical)
    else if HasSeverity(alerts, High) then Some(High)
    else if HasSeverity(alerts, Warning) then Some(Warning)
    else
      assert alerts[0].severity == Info;
      Some(Info)
  }

  /** The name stored with analytics samples: the tier's name, or "NONE". */
  function OverallSeverityName(s: Option<Severity>): string {
    match s
    case None => "NONE"
    case Some(v) => SeverityName(v)
  }
}

=== FILE: common.dfy ===
/** Shared vocabulary of the monitoring core: optional values (the source's
    nullable references) and the loosely typed values the document store
    hands back when a child record is read as a `Map<String, Object>`. */
module Common {

  /** A possibly-absent value; `None` stands for Java's `null`. */
  datatype Option<+T> = None | Some(value: T) {
    function GetOr(default: T): T {
      match this
      case Some(v) => v
      case None => default
    }
  }

  /** A value read back from the store: a number, a boolean or a string. */
  datatype Value = Num(n: real) | Bool(b: bool) | Text(s: string)

  /** A stored child record, field name to value. */
  type Record = map<string, Value>

  predicate NoDuplicates<T(==)>(s: seq<T>) {
    forall i, j :: 0 <= i < j < |s| ==> s[i] != s[j]
  }

  /** Dropping the head of a duplicate-free sequence keeps it duplicate-free,
      and the head does not reappear. */
  lemma NoDuplicatesTail<T>(s: seq<T>)
    requires |s| > 0
    ensures NoDuplicates(s) ==> NoDuplicates(s[1..]) && s[0] !in s[1..]
  {
    if NoDuplicates(s) {
      forall i | 0 <= i < |s[1..]| ensures s[1..][i] != s[0] {
        assert s[1..][i] == s[i + 1];
      }
      forall i, j | 0 <= i < j < |s[1..]| ensures s[1..][i] != s[1..][j] {
        assert s[1..][i] == s[i + 1] && s[1..][j] == s[j + 1];
      }
    }
  }

  /** Java's `Number.longValue()` applied to a double: truncation toward zero. */
  function LongValue(x: real): (r: int)
    ensures 0.0 <= x ==> r as real <= x < r as real + 1.0
    ensures x < 0.0 ==> r as real - 1.0 < x <= r as real
  {
    if x >= 0.0 then x.Floor else -((-x).Floor)
  }

  /** The field `f` of `data` when it holds a number (`instanceof Number`). */
  function NumberField(data: Record, f: string): (r: Option<real>)
    ensures r.Some? <==> f in data && data[f].Num?
    ensures r.Some? ==> data[f] == Num(r.value)
  {
    if f in data && data[f].Num? then Some(data[f].n) else None
  }

  /** The calendar view of an epoch-millisecond timestamp in the process's
      time zone: the `yyyy-MM-dd` partition key, the hour of day and the day
      of week. Left uninterpreted. */
  datatype Calendar = Calendar(dateKey: int -> string, hourOfDay: int -> int, dayOfWeek: int -> int)
}

=== FILE: config_cache.dfy ===
/** The warehouse-config cache: what the added, changed and removed events do
    to the set of monitored configurations, and which audit events they emit. */
module ConfigCache {
  import opened Common
  import opened Warehouse

  type Cache = map<string, WarehouseConfig>

  /** Every cached config passed validation and carries its key as id. */
  predicate CacheInvariant(c: Cache) {
    forall k :: k in c ==> ValidateWarehouseConfig(c[k]) && c[k].id == k
  }

  /** One difference `logConfigurationChanges` reports. */
  datatype ConfigChange =
    | NameChanged(fromName: string, toName: string)
    | MinTempChanged(fromValue: real, toValue: real)
    | MaxTempChanged(fromValue: real, toValue: real)
    | MinHumidityChanged(fromValue: real, toValue: real)
    | MaxHumidityChanged(fromValue: real, toValue: real)

  datatype AuditEvent =
    | WarehouseAdded(warehouseId: string, userId: Option<string>, name: Option<string>)
    | WarehouseModified(warehouseId: string, userId: Option<string>, changes: seq<ConfigChange>)
    | WarehouseRemoved(warehouseId: string, userId: Option<string>, name: Option<string>)

  /** The name and four thresholds agree; nothing else is compared. */
  predicate SameAuditedFields(a: WarehouseConfig, b: WarehouseConfig) {
    && a.name == b.name
    && a.minTemp == b.minTemp && a.maxTemp == b.maxTemp
    && a.minHumidity == b.minHumidity && a.maxHumidity == b.maxHumidity
  }

  /** The change list of `logConfigurationChanges`, in the source's order:
      name, min and max temperature, min and max humidity. */
  function ConfigurationChanges(before: WarehouseConfig, after: WarehouseConfig): (r: seq<ConfigChange>)
    requires before.name.Some? && after.name.Some?
    ensures |r| == 0 <==> SameAuditedFields(before, after)
    ensures |r| <= 5
    ensures NameChanged(before.name.value, after.name.value) in r <==> before.name != after.name
    ensures MinTempChanged(before.minTemp, after.minTemp) in r <==> before.minTemp != after.minTemp
    ensures MaxTempChanged(before.maxTemp, after.maxTemp) in r <==> before.maxTemp != after.maxTemp
    ensures MinHumidityChanged(before.minHumidity, after.minHumidity) in r <==> before.minHumidity != after.minHumidity
    ensures MaxHumidityChanged(before.maxHumidity, after.maxHumidity) in r <==> before.maxHumidity != after.maxHumidity
    ensures forall ch :: ch in r ==>
              match ch
              case NameChanged(x, y) => x == before.name.value && y == after.name.value && x != y
              case MinTempChanged(x, y) => x == before.minTemp && y == after.minTemp && x != y
              case MaxTempChanged(x, y) => x == before.maxTemp && y == after.maxTemp && x != y
              case MinHumidityChanged(x, y) => x == before.minHumidity && y == after.minHumidity && x != y
              case MaxHumidityChanged(x, y) => x == before.maxHumidity && y == after.maxHumidity && x != y
  {
    (if before.name.value != after.name.value then [NameChanged(before.name.value, after.name.value)] else [])
    + (if before.minTemp != after.minTemp then [MinTempChanged(before.minTemp, after.minTemp)] else [])
    + (if before.maxTemp != after.maxTemp then [MaxTempChanged(before.maxTemp, after.maxTemp)] else [])
    + (if before.minHumidity != after.minHumidity then [MinHumidityChanged(before.minHumidity, after.minHumidity)] else [])
    + (if before.maxHumidity != after.maxHumidity then [MaxHumidityChanged(before.maxHumidity, after.maxHumidity)] else [])
  }

  /** The audit event a modification emits: one only if something audited changed. */
  function ModificationEvents(warehouseId: string, before: WarehouseConfig, after: WarehouseConfig): (r: seq<AuditEvent>)
    requires before.name.Some? && after.name.Some?
    ensures |r| <= 1
    ensures |r| == 1 <==> !SameAuditedFields(before, after)
    ensures forall e :: e in r ==> e.WarehouseModified? && e.warehouseId == warehouseId && e.userId == after.userId
  {
    var changes := ConfigurationChanges(before, after);
    if |changes| > 0 then [WarehouseModified(warehouseId, after.userId, changes)] else []
  }

  /** Editing location, type, owner or status alone is never audited. */
  lemma UnauditedFieldsProduceNoEvent(warehouseId: string, before: WarehouseConfig,
                                      location: Option<string>, storageType: Option<string>,
                                      userId: Option<string>, status: Option<string>)
    requires before.name.Some?
    ensures ModificationEvents(warehouseId, before,
              before.(location := location, storageType := storageType, userId := userId, status := status)) == []
  {
  }

  /** The cache after an event, and the audit events the event emitted. */
  datatype Step = Step(cache: Cache, events: seq<AuditEvent>)

  /** `c'` agrees with `c` on every key other than `key`. */
  predicate AgreeExcept(c: Cache, c': Cache, key: string) {
    && (forall k :: k in c && k != key ==> k in c' && c'[k] == c[k])
    && (forall k :: k in c' && k != key ==> k in c)
  }

  /** `handleWarehouseAdded`: a null or invalid config is ignored; otherwise it
      is stored under its key (with its id set to the key) and audited. */
  function HandleWarehouseAdded(c: Cache, key: string, config: Option<WarehouseConfig>): (s: Step)
    ensures CacheInvariant(c) ==> CacheInvariant(s.cache)
    ensures AgreeExcept(c, s.cache, key)
    ensures config.None? || !ValidateWarehouseConfig(config.value) ==> s == Step(c, [])
    ensures config.Some? && ValidateWarehouseConfig(config.value) ==>
              && key in s.cache
              && s.cache[key] == config.value.(id := key)
              && s.events == [WarehouseAdded(key, config.value.userId, config.value.name)]
  {
    match config
    case None => Step(c, [])
    case Some(cfg) =>
      var cfg' := cfg.(id := key);
      if !ValidateWarehouseConfig(cfg') then Step(c, [])
      else Step(c[key := cfg'], [WarehouseAdded(key, cfg'.userId, cfg'.name)])
  }

  /** `handleWarehouseUpdated`: a null or invalid config leaves the cache as it
      was, so the prior parameters stay in force; a valid one replaces (or
      inserts) the entry, and only a replaced entry is diffed for the audit log.
      A replaced entry without a name makes the diff throw after the put; the
      put stands and no audit event is written. */
  function HandleWarehouseUpdated(c: Cache, key: string, config: Option<WarehouseConfig>): (s: Step)
    ensures CacheInvariant(c) ==> CacheInvariant(s.cache)
    ensures AgreeExcept(c, s.cache, key)
    ensures config.None? || !ValidateWarehouseConfig(config.value) ==> s == Step(c, [])
    ensures config.Some? && ValidateWarehouseConfig(config.value) ==>
              && key in s.cache
              && s.cache[key] == config.value.(id := key)
              && |s.events| <= 1
              && (forall e :: e in s.events ==> e.WarehouseModified?)
    ensures CacheInvariant(c) && config.Some? && ValidateWarehouseConfig(config.value) ==>
              (|s.events| == 1 <==> key in c && !SameAuditedFields(c[key], config.value))
    ensures CacheInvariant(c) && config.Some? && ValidateWarehouseConfig(config.value) && key in c ==>
              s.events == ModificationEvents(key, c[key], config.value.(id := key))
  {
    match config
    case None => Step(c, [])
    case Some(cfg) =>
      var cfg' := cfg.(id := key);
      if !ValidateWarehouseConfig(cfg') then Step(c, [])
      else if key in c && c[key].name.Some? then Step(c[key := cfg'], ModificationEvents(key, c[key], cfg'))
      else Step(c[key := cfg'], [])
  }

  /** `handleWarehouseRemoved`: only that key goes; an audit event only if it was cached. */
  function HandleWarehouseRemoved(c: Cache, key: string): (s: Step)
    ensures CacheInvariant(c) ==> CacheInvariant(s.cache)
    ensures key !in s.cache
    ensures AgreeExcept(c, s.cache, key)
    ensures |s.events| == 1 <==> key in c
    ensures key !in c ==> s == Step(c, [])
    ensures forall e :: e in s.events ==> e.WarehouseRemoved? && e.warehouseId == key
  {
    if key in c then Step(c - {key}, [WarehouseRemoved(key, c[key].userId, c[key].name)])
    else Step(c, [])
  }

  /** A change notification on the warehouse collection. */
  datatype ConfigEvent =
    | Added(key: string, config: Option<WarehouseConfig>)
    | Changed(key: string, config: Option<WarehouseConfig>)
    | Removed(key: string)

  function ApplyConfigEvent(c: Cache, e: ConfigEvent): Step {
    match e
    case Added(k, cfg) => HandleWarehouseAdded(c, k, cfg)
    case Changed(k, cfg) => HandleWarehouseUpdated(c, k, cfg)
    case Removed(k) => HandleWarehouseRemoved(c, k)
  }

  /** The cache after a whole stream of events, and every audit event emitted. */
  function ApplyConfigEvents(c: Cache, es: seq<ConfigEvent>): Step
    decreases |es|
  {
    if |es| == 0 then Step(c, [])
    else
      var first := ApplyConfigEvent(c, es[0]);
      var rest := ApplyConfigEvents(first.cache, es[1..]);
      Step(rest.cache, first.events + rest.events)
  }

  /** Starting from a well-formed cache, no sequence of events can admit an
      invalid config or file a config under a key other than its id. */
  lemma {:induction false} InvariantPreserved(c: Cache, es: seq<ConfigEvent>)
    requires CacheInvariant(c)
    ensures CacheInvariant(ApplyConfigEvents(c, es).cache)
    decreases |es|
  {
    if |es| > 0 {
      InvariantPreserved(ApplyConfigEvent(c, es[0]).cache, es[1..]);
    }
  }

  /** Events for other warehouses never touch a key: the cached entry for
      `key` after the stream is the one it had before. */
  lemma {:induction false} OtherKeysUntouched(c: Cache, es: seq<ConfigEvent>, key: string)
    requires forall i :: 0 <= i < |es| ==> es[i].key != key
    ensures key in ApplyConfigEvents(c, es).cache <==> key in c
    ensures key in c ==> ApplyConfigEvents(c, es).cache[key] == c[key]
    decreases |es|
  {
    if |es| > 0 {
      OtherKeysUntouched(ApplyConfigEvent(c, es[0]).cache, es[1..], key);
    }
  }
}

=== FILE: processing.dfy ===
/** The per-reading decision: given the caches and one sensor reading, the
    list of writes the monitoring system issues to the store, in issue order.
    The writes themselves (fire-and-forget, each isolated) are not modelled. */
module Processing {
  import opened Common
  import opened Users
  import opened Warehouse
  import opened Alerts
  import opened Routing
  import opened ConfigCache

  datatype WarehouseStatus = Normal | Alerting

  /** The status string written to the warehouse record. */
  function StatusValue(s: WarehouseStatus): (v: string)
    ensures v == "alert" <==> s == Alerting
  {
    match s
    case Normal => "normal"
    case Alerting => "alert"
  }

  /** One analytics sample, stored under its date partition. */
  datatype AnalyticsSample = AnalyticsSample(
    warehouseId: string,
    temperature: real,
    humidity: real,
    timestamp: int,
    hasAlert: bool,
    severity: Option<Severity>,
    hour: int,
    dayOfWeek: int)

  /** A write the monitoring system issues. A notification record carries the
      alert's message, severity, timestamp and type, is unread, and is titled
      after the warehouse's name. */
  datatype Write =
    | StoreAlert(warehouseId: string, warehouseName: Option<string>, alert: Alert)
    | SendNotification(uid: string, warehouseName: Option<string>, alert: Alert)
    | SetStatus(warehouseId: string, status: WarehouseStatus)
    | SetLastReading(warehouseId: string, timestamp: int)
    | StoreAnalytics(date: string, warehouseId: string, sample: AnalyticsSample)

  datatype WriteKind = AlertRecord | Notification | Status | LastReading | Analytics

  function KindOf(w: Write): WriteKind {
    match w
    case StoreAlert(_, _, _) => AlertRecord
    case SendNotification(_, _, _) => Notification
    case SetStatus(_, _) => Status
    case SetLastReading(_, _) => LastReading
    case StoreAnalytics(_, _, _) => Analytics
  }

  /** The writes of `ws` of kind `k`, in order. */
  function Only(ws: seq<Write>, k: WriteKind): seq<Write> {
    if |ws| == 0 then []
    else (if KindOf(ws[0]) == k then [ws[0]] else []) + Only(ws[1..], k)
  }

  /** The filter of a single write. */
  lemma OnlySingle(w: Write, k: WriteKind)
    ensures Only([w], k) == if KindOf(w) == k then [w] else []
  {
    assert [w][1..] == [];
  }

  /** The filter of three writes, one at a time. */
  lemma OnlyTriple(a: Write, b: Write, c: Write, k: WriteKind)
    ensures Only([a, b, c], k) ==
              (if KindOf(a) == k then [a] else []) + (if KindOf(b) == k then [b] else []) + (if KindOf(c) == k then [c] else [])
  {
    assert [a, b, c] == [a] + [b] + [c];
    OnlyConcat([a] + [b], [c], k);
    OnlyConcat([a], [b], k);
    OnlySingle(a, k);
    OnlySingle(b, k);
    OnlySingle(c, k);
  }

  /** The filter keeps exactly the writes of kind `k`. */
  lemma {:induction false} OnlyMembers(ws: seq<Write>, k: WriteKind)
    ensures forall w :: w in Only(ws, k) <==> w in ws && KindOf(w) == k
  {
    if |ws| > 0 {
      assert forall w :: w in ws <==> w == ws[0] || w in ws[1..];
      OnlyMembers(ws[1..], k);
    }
  }

  lemma {:induction false} OnlyConcat(a: seq<Write>, b: seq<Write>, k: WriteKind)
    ensures Only(a + b, k) == Only(a, k) + Only(b, k)
  {
    if |a| > 0 {
      var h := if KindOf(a[0]) == k then [a[0]] else [];
      calc {
        Only(a + b, k);
        { assert (a + b)[0] == a[0]; assert (a + b)[1..] == a[1..] + b; }
        h + Only(a[1..] + b, k);
        { OnlyConcat(a[1..], b, k); }
        h + (Only(a[1..], k) + Only(b, k));
        (h + Only(a[1..], k)) + Only(b, k);
        Only(a, k) + Only(b, k);
      }
    } else {
      assert a + b == b;
    }
  }

  /** A batch with no write of kind `k` has nothing to select. */
  lemma {:induction false} OnlyNone(ws: seq<Write>, k: WriteKind)
    requires forall i :: 0 <= i < |ws| ==> KindOf(ws[i]) != k
    ensures Only(ws, k) == []
  {
    if |ws| > 0 {
      OnlyNone(ws[1..], k);
    }
  }

  /** One notification write per recipient. */
  function NotificationWrites(uids: seq<string>, name: Option<string>, a: Alert): (r: seq<Write>)
    ensures |r| == |uids|
    ensures forall w :: w in r ==> w.SendNotification? && w.warehouseName == name && w.alert == a
    ensures forall uid :: SendNotification(uid, name, a) in r <==> uid in uids
  {
    if |uids| == 0 then []
    else
      assert forall uid :: uid in uids <==> uid == uids[0] || uid in uids[1..];
      [SendNotification(uids[0], name, a)] + NotificationWrites(uids[1..], name, a)
  }

  /** The alert records of `sendAlert`, one per alert, in order. */
  function AlertRecords(warehouseId: string, name: Option<string>, alerts: seq<Alert>): seq<Write> {
    seq(|alerts|, i requires 0 <= i < |alerts| => StoreAlert(warehouseId, name, alerts[i]))
  }

  /** For each alert in turn, `sendAlert`: store the alert record, then notify
      the recipients of that alert. */
  function AlertWrites(warehouseId: string, config: WarehouseConfig, users: map<string, User>,
                       order: seq<string>, alerts: seq<Alert>): (r: seq<Write>)
    requires KeyedByUid(users) && Enumerates(order, users)
    ensures forall w :: w in r ==> w.StoreAlert? || (w.SendNotification? && w.warehouseName == config.name)
  {
    if |alerts| == 0 then []
    else
      [StoreAlert(warehouseId, config.name, alerts[0])]
      + NotificationWrites(Recipients(users, order, config.userId, warehouseId, alerts[0]), config.name, alerts[0])
      + AlertWrites(warehouseId, config, users, order, alerts[1..])
  }

  /** The alert records among the writes are exactly one per alert, in the
      classifier's order. */
  lemma {:induction false} AlertWritesStoreEachAlert(warehouseId: string, config: WarehouseConfig,
                                                     users: map<string, User>, order: seq<string>,
                                                     alerts: seq<Alert>)
    requires KeyedByUid(users) && Enumerates(order, users)
    ensures Only(AlertWrites(warehouseId, config, users, order, alerts), AlertRecord)
            == AlertRecords(warehouseId, config.name, alerts)
  {
    if |alerts| > 0 {
      var a := alerts[0];
      var record := StoreAlert(warehouseId, config.name, a);
      var notes := NotificationWrites(Recipients(users, order, config.userId, warehouseId, a), config.name, a);
      var rest := AlertWrites(warehouseId, config, users, order, alerts[1..]);
      assert AlertWrites(warehouseId, config, users, order, alerts) == [record] + notes + rest;
      AlertWritesStoreEachAlert(warehouseId, config, users, order, alerts[1..]);
      OnlyConcat([record] + notes, rest, AlertRecord);
      OnlyConcat([record], notes, AlertRecord);
      assert forall i :: 0 <= i < |notes| ==> KindOf(notes[i]) != AlertRecord by {
        forall i | 0 <= i < |notes| ensures KindOf(notes[i]) != AlertRecord {
          assert notes[i] in notes;
        }
      }
      OnlyNone(notes, AlertRecord);
      assert Only([record], AlertRecord) == [record] by {
        assert [record][1..] == [];
      }
      AlertRecordsCons(warehouseId, config.name, alerts);
    }
  }

  lemma AlertRecordsCons(warehouseId: string, name: Option<string>, alerts: seq<Alert>)
    requires |alerts| > 0
    ensures AlertRecords(warehouseId, name, alerts)
            == [StoreAlert(warehouseId, name, alerts[0])] + AlertRecords(warehouseId, name, alerts[1..])
  {
    var r := AlertRecords(warehouseId, name, alerts);
    var t := [StoreAlert(warehouseId, name, alerts[0])] + AlertRecords(warehouseId, name, alerts[1..]);
    assert |r| == |t|;
    forall i | 0 <= i < |r| ensures r[i] == t[i] {
      if i > 0 {
        assert t[i] == AlertRecords(warehouseId, name, alerts[1..])[i - 1];
      }
    }
  }

  /** A user is notified of an alert exactly when the alert was raised and the
      router selects the user for it. */
  lemma {:induction false} AlertWritesNotifyRecipients(warehouseId: string, config: WarehouseConfig,
                                                       users: map<string, User>, order: seq<string>,
                                                       alerts: seq<Alert>, uid: string, a: Alert)
    requires KeyedByUid(users) && Enumerates(order, users)
    ensures SendNotification(uid, config.name, a) in AlertWrites(warehouseId, config, users, order, alerts)
            <==> a in alerts && uid in Recipients(users, order, config.userId, warehouseId, a)
  {
    if |alerts| > 0 {
      AlertWritesNotifyRecipients(warehouseId, config, users, order, alerts[1..], uid, a);
      assert a in alerts <==> a == alerts[0] || a in alerts[1..];
    }
  }

  /** The sample `storeAnalytics` writes for a reading. */
  function Sample(warehouseId: string, cal: Calendar, r: SensorReading, alerts: seq<Alert>): AnalyticsSample {
    AnalyticsSample(warehouseId, r.temperature, r.humidity, r.timestamp, |alerts| > 0,
                    DetermineOverallSeverity(alerts), cal.hourOfDay(r.timestamp), cal.dayOfWeek(r.timestamp))
  }

  /** The status a reading's alerts call for. */
  function StatusFor(alerts: seq<Alert>): WarehouseStatus {
    if |alerts| > 0 then Alerting else Normal
  }

  /** `processSensorReading`: no cached config means no writes at all;
      otherwise the alert writes, then exactly one status write ("alert" iff
      there are alerts, else "normal", so a recovered warehouse is reset), the
      last-reading timestamp, and one analytics sample. */
  function ProcessSensorReading(configs: Cache, users: map<string, User>, order: seq<string>,
                                cal: Calendar, warehouseId: string, r: SensorReading): (ws: seq<Write>)
    requires CacheInvariant(configs)
    requires KeyedByUid(users) && Enumerates(order, users)
    ensures warehouseId !in configs ==> ws == []
    ensures warehouseId in configs ==>
              var alerts := CheckForAlerts(configs[warehouseId], r);
              && Only(ws, AlertRecord) == AlertRecords(warehouseId, configs[warehouseId].name, alerts)
              && Only(ws, Status) == [SetStatus(warehouseId, StatusFor(alerts))]
              && Only(ws, LastReading) == [SetLastReading(warehouseId, r.timestamp)]
              && Only(ws, Analytics)
                 == [StoreAnalytics(cal.dateKey(r.timestamp), warehouseId, Sample(warehouseId, cal, r, alerts))]
    ensures warehouseId in configs ==>
              forall w :: w in ws && w.SendNotification? ==> w.warehouseName == configs[warehouseId].name
  {
    if warehouseId !in configs then []
    else
      var config := configs[warehouseId];
      var alerts := CheckForAlerts(config, r);
      var alertWrites := AlertWrites(warehouseId, config, users, order, alerts);
      var status := SetStatus(warehouseId, StatusFor(alerts));
      var last := SetLastReading(warehouseId, r.timestamp);
      var sample := StoreAnalytics(cal.dateKey(r.timestamp), warehouseId, Sample(warehouseId, cal, r, alerts));
      ProcessSensorReadingShape(alertWrites, status, last, sample);
      AlertWritesStoreEachAlert(warehouseId, config, users, order, alerts);
      alertWrites + [status, last, sample]
  }

  /** The filters of an alert batch followed by the status, last-reading and
      analytics writes. */
  lemma ProcessSensorReadingShape(alertWrites: seq<Write>, status: Write, last: Write, sample: Write)
    requires forall w :: w in alertWrites ==> w.StoreAlert? || w.SendNotification?
    requires status.SetStatus? && last.SetLastReading? && sample.StoreAnalytics?
    ensures Only(alertWrites + [status, last, sample], AlertRecord) == Only(alertWrites, AlertRecord)
    ensures Only(alertWrites + [status, last, sample], Status) == [status]
    ensures Only(alertWrites + [status, last, sample], LastReading) == [last]
    ensures Only(alertWrites + [status, last, sample], Analytics) == [sample]
  {
    var tail := [status, last, sample];
    OnlyTriple(status, last, sample, AlertRecord);
    OnlyTriple(status, last, sample, Status);
    OnlyTriple(status, last, sample, LastReading);
    OnlyTriple(status, last, sample, Analytics);
    OnlyConcat(alertWrites, tail, AlertRecord);
    OnlyConcat(alertWrites, tail, Status);
    OnlyConcat(alertWrites, tail, LastReading);
    OnlyConcat(alertWrites, tail, Analytics);
    OnlyNone(alertWrites, Status);
    OnlyNone(alertWrites, LastReading);
    OnlyNone(alertWrites, Analytics);
  }

  /** Notifications for a processed reading go exactly to the router's
      recipients of each alert the reading raised. */
  lemma ProcessedReadingNotifications(configs: Cache, users: map<string, User>, order: seq<string>,
                                      cal: Calendar, warehouseId: string, r: SensorReading,
                                      uid: string, a: Alert)
    requires CacheInvariant(configs)
    requires KeyedByUid(users) && Enumerates(order, users)
    requires warehouseId in configs
    ensures SendNotification(uid, configs[warehouseId].name, a)
              in ProcessSensorReading(configs, users, order, cal, warehouseId, r)
            <==> a in CheckForAlerts(configs[warehouseId], r)
                 && uid in Recipients(users, order, configs[warehouseId].userId, warehouseId, a)
  {
    AlertWritesNotifyRecipients(warehouseId, configs[warehouseId], users, order,
                                CheckForAlerts(configs[warehouseId], r), uid, a);
  }

  /** The reading-event callback: a null reading, or one that fails
      validation against the clock value `now`, is dropped; a valid one is
      processed. */
  function OnSensorReading(configs: Cache, users: map<string, User>, order: seq<string>, cal: Calendar,
                           now: int, warehouseId: string, reading: Option<SensorReading>): (ws: seq<Write>)
    requires CacheInvariant(configs)
    requires KeyedByUid(users) && Enumerates(order, users)
    ensures ws != [] <==> reading.Some? && ValidateSensorReading(reading.value, now) && warehouseId in configs
    ensures ws != [] ==>
              var alerts := CheckForAlerts(configs[warehouseId], reading.value);
              && Only(ws, Status) == [SetStatus(warehouseId, StatusFor(alerts))]
              && Only(ws, LastReading) == [SetLastReading(warehouseId, reading.value.timestamp)]
              && |Only(ws, Analytics)| == 1
  {
    if reading.None? || !ValidateSensorReading(reading.value, now) then []
    else ProcessSensorReading(configs, users, order, cal, warehouseId, reading.value)
  }

  // ---------------------------------------------------------------------
  // Status writes are snapshots: replaying them changes nothing
  // ---------------------------------------------------------------------

  /** The warehouse status map after the status writes of `ws`, in order. */
  function ApplyStatusWrites(st: map<string, WarehouseStatus>, ws: seq<Write>): map<string, WarehouseStatus>
    decreases |ws|
  {
    if |ws| == 0 then st
    else if ws[0].SetStatus? then ApplyStatusWrites(st[ws[0].warehouseId := ws[0].status], ws[1..])
    else ApplyStatusWrites(st, ws[1..])
  }

  /** The last status each warehouse receives in `ws`. */
  function LastStatuses(ws: seq<Write>): map<string, WarehouseStatus> {
    if |ws| == 0 then map[]
    else if ws[0].SetStatus? then map[ws[0].warehouseId := ws[0].status] + LastStatuses(ws[1..])
    else LastStatuses(ws[1..])
  }

  /** Applying status writes overrides the old map with each warehouse's last status. */
  lemma {:induction false} ApplyIsOverride(st: map<string, WarehouseStatus>, ws: seq<Write>)
    ensures ApplyStatusWrites(st, ws) == st + LastStatuses(ws)
    decreases |ws|
  {
    if |ws| > 0 {
      if ws[0].SetStatus? {
        var k, v := ws[0].warehouseId, ws[0].status;
        ApplyIsOverride(st[k := v], ws[1..]);
        assert st[k := v] + LastStatuses(ws[1..]) == st + (map[k := v] + LastStatuses(ws[1..]));
      } else {
        ApplyIsOverride(st, ws[1..]);
      }
    }
  }

  /** Only status writes matter for the final statuses. */
  lemma {:induction false} LastStatusesOfStatusWrites(ws: seq<Write>)
    ensures LastStatuses(ws) == LastStatuses(Only(ws, Status))
  {
    if |ws| > 0 {
      LastStatusesOfStatusWrites(ws[1..]);
      if ws[0].SetStatus? {
        assert Only(ws, Status) == [ws[0]] + Only(ws[1..], Status);
        assert ([ws[0]] + Only(ws[1..], Status))[1..] == Only(ws[1..], Status);
      } else {
        assert Only(ws, Status) == Only(ws[1..], Status);
      }
    }
  }

  /** Replaying a batch of writes leaves the same statuses as applying it once. */
  lemma ApplyStatusWritesIdempotent(st: map<string, WarehouseStatus>, ws: seq<Write>)
    ensures ApplyStatusWrites(ApplyStatusWrites(st, ws), ws) == ApplyStatusWrites(st, ws)
  {
    ApplyIsOverride(st, ws);
    ApplyIsOverride(st + LastStatuses(ws), ws);
    assert (st + LastStatuses(ws)) + LastStatuses(ws) == st + LastStatuses(ws);
  }

  /** Processing a reading leaves the warehouse "alert" exactly when the
      reading raised alerts, whatever the status was before, and processing
      the same reading again (an at-least-once redelivery) changes no status. */
  lemma ReprocessingKeepsStatus(configs: Cache, users: map<string, User>, order: seq<string>,
                                cal: Calendar, warehouseId: string, r: SensorReading,
                                st: map<string, WarehouseStatus>)
    requires CacheInvariant(configs)
    requires KeyedByUid(users) && Enumerates(order, users)
    requires warehouseId in configs
    ensures var ws := ProcessSensorReading(configs, users, order, cal, warehouseId, r);
            && warehouseId in ApplyStatusWrites(st, ws)
            && (StatusValue(ApplyStatusWrites(st, ws)[warehouseId]) == "alert" <==> CheckForAlerts(configs[warehouseId], r) != [])
            && ApplyStatusWrites(ApplyStatusWrites(st, ws), ws) == ApplyStatusWrites(st, ws)
  {
    var ws := ProcessSensorReading(configs, users, order, cal, warehouseId, r);
    ApplyStatusWritesIdempotent(st, ws);
    ApplyIsOverride(st, ws);
    LastStatusesOfStatusWrites(ws);
    var s := Only(ws, Status)[0];
    assert LastStatuses([s]) == map[warehouseId := s.status] by {
      assert [s][1..] == [];
    }
  }
}

=== FILE: reports.dfy ===
/** The daily report: aggregation of one warehouse's analytics partition for
    one date into reading and alert counts and temperature and humidity
    statistics. */
module Reports {
  import opened Common
  import opened Alerts
  import opened Processing

  /** The numbers stored under `field` in the non-null records, in order;
      records where the field is missing or not a number are skipped. */
  function Numbers(samples: seq<Option<Record>>, field: string): (r: seq<real>)
    ensures |r| <= NonNullCount(samples)
  {
    if |samples| == 0 then []
    else
      var rest := Numbers(samples[1..], field);
      match samples[0]
      case Some(data) =>
        (match NumberField(data, field)
         case Some(x) => [x] + rest
         case None => rest)
      case None => rest
  }

  function NonNullCount(samples: seq<Option<Record>>): (n: nat)
    ensures n <= |samples|
  {
    if |samples| == 0 then 0
    else (if samples[0].Some? then 1 else 0) + NonNullCount(samples[1..])
  }

  /** A record counts as an alert when `hasAlert` is the boolean true. */
  predicate IsAlertRecord(data: Record) {
    "hasAlert" in data && data["hasAlert"] == Bool(true)
  }

  /** An alert record counts as critical when `severity` is the string "CRITICAL". */
  predicate IsCriticalRecord(data: Record) {
    IsAlertRecord(data) && "severity" in data && data["severity"] == Text("CRITICAL")
  }

  function AlertCount(samples: seq<Option<Record>>): (n: nat)
    ensures n <= NonNullCount(samples)
  {
    if |samples| == 0 then 0
    else (if samples[0].Some? && IsAlertRecord(samples[0].value) then 1 else 0) + AlertCount(samples[1..])
  }

  function CriticalAlertCount(samples: seq<Option<Record>>): (n: nat)
    ensures n <= AlertCount(samples)
  {
    if |samples| == 0 then 0
    else (if samples[0].Some? && IsCriticalRecord(samples[0].value) then 1 else 0) + CriticalAlertCount(samples[1..])
  }

  /** The smallest element of a non-empty sequence. */
  function Min(s: seq<real>): (m: real)
    requires |s| > 0
    ensures m in s
    ensures forall x :: x in s ==> m <= x
  {
    if |s| == 1 then s[0]
    else
      var rest := Min(s[1..]);
      assert forall x :: x in s ==> x == s[0] || x in s[1..];
      if s[0] <= rest then s[0] else rest
  }

  /** The largest element of a non-empty sequence. */
  function Max(s: seq<real>): (m: real)
    requires |s| > 0
    ensures m in s
    ensures forall x :: x in s ==> x <= m
  {
    if |s| == 1 then s[0]
    else
      var rest := Max(s[1..]);
      assert forall x :: x in s ==> x == s[0] || x in s[1..];
      if s[0] >= rest then s[0] else rest
  }

  function Sum(s: seq<real>): real {
    if |s| == 0 then 0.0 else s[0] + Sum(s[1..])
  }

  /** The stream's `average().orElse(0)`, in exact arithmetic. */
  function Average(s: seq<real>): real {
    if |s| == 0 then 0.0 else Sum(s) / (|s| as real)
  }

  /** Every element between `lo` and `hi` puts the sum between `|s|*lo` and `|s|*hi`. */
  lemma {:induction false} SumBetween(s: seq<real>, lo: real, hi: real)
    requires forall x :: x in s ==> lo <= x <= hi
    ensures (|s| as real) * lo <= Sum(s) <= (|s| as real) * hi
  {
    if |s| > 0 {
      assert s[0] in s;
      assert forall x :: x in s[1..] ==> x in s;
      SumBetween(s[1..], lo, hi);
    }
  }

  /** Dividing by a positive count keeps the bounds `n*lo <= sum <= n*hi` as `lo <= sum/n <= hi`. */
  lemma DivideBounds(sum: real, n: real, lo: real, hi: real)
    requires n > 0.0
    requires n * lo <= sum <= n * hi
    ensures lo <= sum / n <= hi
  {
    assert sum / n * n == sum;
  }

  /** Bounds on every element bound the average. */
  lemma AverageWithin(s: seq<real>, lo: real, hi: real)
    requires |s| > 0
    requires forall x :: x in s ==> lo <= x <= hi
    ensures lo <= Average(s) <= hi
  {
    SumBetween(s, lo, hi);
    DivideBounds(Sum(s), |s| as real, lo, hi);
  }

  /** The average of a non-empty sequence lies between its minimum and maximum. */
  lemma AverageBetween(s: seq<real>)
    ensures |s| > 0 ==> Min(s) <= Average(s) <= Max(s)
  {
    if |s| > 0 {
      AverageWithin(s, Min(s), Max(s));
    }
  }

  /** The report stored for one warehouse and date. */
  datatype DailyReport = DailyReport(
    warehouseId: string,
    date: string,
    readingCount: nat,
    alertCount: nat,
    criticalAlertCount: nat,
    avgTemperature: real,
    minTemperature: real,
    maxTemperature: real,
    avgHumidity: real,
    minHumidity: real,
    maxHumidity: real)

  /** `generateWarehouseReport` over the children of the partition: no report
      unless some record has a numeric temperature; the reading count is the
      number of such records; the humidity statistics fall back to 0 when no
      record has a numeric humidity. */
  function GenerateWarehouseReport(warehouseId: string, date: string, samples: seq<Option<Record>>): (r: Option<DailyReport>)
    ensures r.None? <==> Numbers(samples, "temperature") == []
    ensures r.Some? ==>
              var d := r.value;
              var ts := Numbers(samples, "temperature");
              && d.warehouseId == warehouseId && d.date == date
              && d.readingCount == |ts| <= NonNullCount(samples)
              && d.alertCount == AlertCount(samples) && d.criticalAlertCount == CriticalAlertCount(samples)
              && d.criticalAlertCount <= d.alertCount <= NonNullCount(samples)
              && d.minTemperature in ts && d.maxTemperature in ts
              && (forall t :: t in ts ==> d.minTemperature <= t <= d.maxTemperature)
              && d.minTemperature <= d.avgTemperature <= d.maxTemperature
    ensures r.Some? ==>
              var d := r.value;
              var hs := Numbers(samples, "humidity");
              && (hs == [] ==> d.avgHumidity == 0.0 && d.minHumidity == 0.0 && d.maxHumidity == 0.0)
              && (hs != [] ==>
                    && d.minHumidity in hs && d.maxHumidity in hs
                    && (forall h :: h in hs ==> d.minHumidity <= h <= d.maxHumidity)
                    && d.minHumidity <= d.avgHumidity <= d.maxHumidity)
  {
    var ts := Numbers(samples, "temperature");
    var hs := Numbers(samples, "humidity");
    if ts == [] then None
    else
      AverageBetween(ts);
      AverageBetween(hs);
      Some(DailyReport(
        warehouseId, date, |ts|, AlertCount(samples), CriticalAlertCount(samples),
        Average(ts), Min(ts), Max(ts),
        Average(hs), if hs == [] then 0.0 else Min(hs), if hs == [] then 0.0 else Max(hs)))
  }

  /** The record `storeAnalytics` writes for a sample. */
  function SampleRecord(s: AnalyticsSample): Record {
    map[
      "warehouseId" := Text(s.warehouseId),
      "temperature" := Num(s.temperature),
      "humidity" := Num(s.humidity),
      "timestamp" := Num(s.timestamp as real),
      "hasAlert" := Bool(s.hasAlert),
      "severity" := Text(OverallSeverityName(s.severity)),
      "hour" := Num(s.hour as real),
      "dayOfWeek" := Num(s.dayOfWeek as real)]
  }

  /** A partition holding exactly the records written for `ss`. */
  function StoredSamples(ss: seq<AnalyticsSample>): seq<Option<Record>> {
    if |ss| == 0 then [] else [Some(SampleRecord(ss[0]))] + StoredSamples(ss[1..])
  }

  /** The temperatures and humidities of the samples, in order. */
  function SampleTemperatures(ss: seq<AnalyticsSample>): (ts: seq<real>)
    ensures |ts| == |ss|
  {
    if |ss| == 0 then [] else [ss[0].temperature] + SampleTemperatures(ss[1..])
  }

  function SampleHumidities(ss: seq<AnalyticsSample>): (hs: seq<real>)
    ensures |hs| == |ss|
  {
    if |ss| == 0 then [] else [ss[0].humidity] + SampleHumidities(ss[1..])
  }

  function AlertingSamples(ss: seq<AnalyticsSample>): nat {
    if |ss| == 0 then 0 else (if ss[0].hasAlert then 1 else 0) + AlertingSamples(ss[1..])
  }

  function CriticalSamples(ss: seq<AnalyticsSample>): nat {
    if |ss| == 0 then 0
    else (if ss[0].hasAlert && ss[0].severity == Some(Critical) then 1 else 0) + CriticalSamples(ss[1..])
  }

  /** The fields of one written record as the report reads them. */
  lemma SampleRecordFields(s: AnalyticsSample)
    ensures NumberField(SampleRecord(s), "temperature") == Some(s.temperature)
    ensures NumberField(SampleRecord(s), "humidity") == Some(s.humidity)
    ensures IsAlertRecord(SampleRecord(s)) <==> s.hasAlert
    ensures IsCriticalRecord(SampleRecord(s)) <==> s.hasAlert && s.severity == Some(Critical)
  {
    assert OverallSeverityName(s.severity) == "CRITICAL" <==> s.severity == Some(Critical);
  }

  /** Reading back what was written: every written record contributes its
      sample's temperature and humidity, in order. */
  lemma {:induction false} StoredSamplesReadBack(ss: seq<AnalyticsSample>)
    ensures Numbers(StoredSamples(ss), "temperature") == SampleTemperatures(ss)
    ensures Numbers(StoredSamples(ss), "humidity") == SampleHumidities(ss)
  {
    if |ss| > 0 {
      assert StoredSamples(ss)[1..] == StoredSamples(ss[1..]);
      StoredSamplesReadBack(ss[1..]);
      SampleRecordFields(ss[0]);
    }
  }

  /** The alert counts read back are those of the written samples. */
  lemma {:induction false} StoredSamplesAlertCounts(ss: seq<AnalyticsSample>)
    ensures AlertCount(StoredSamples(ss)) == AlertingSamples(ss)
    ensures CriticalAlertCount(StoredSamples(ss)) == CriticalSamples(ss)
  {
    if |ss| > 0 {
      assert StoredSamples(ss)[1..] == StoredSamples(ss[1..]);
      StoredSamplesAlertCounts(ss[1..]);
      SampleRecordFields(ss[0]);
    }
  }

  /** The report over a day's written samples counts every sample as a
      reading, and its alert counts are those of the samples. */
  lemma ReportOfWrittenSamples(warehouseId: string, date: string, ss: seq<AnalyticsSample>)
    requires |ss| > 0
    ensures var r := GenerateWarehouseReport(warehouseId, date, StoredSamples(ss));
            && r.Some?
            && r.value.readingCount == |ss|
            && r.value.alertCount == AlertingSamples(ss)
            && r.value.criticalAlertCount == CriticalSamples(ss)
  {
    StoredSamplesReadBack(ss);
    StoredSamplesAlertCounts(ss);
  }
}

=== FILE: retention.dfy ===
/** The retention sweep: which alerts, notifications and analytics date
    partitions a cleanup run deletes. The deletions themselves are
    best-effort store calls and are not modelled. */
module Retention {
  import opened Common

  const RetentionDays: int := 30
  const MillisPerDay: int := 24 * 60 * 60 * 1000

  /** `now - 30 days`, in epoch milliseconds. */
  function Cutoff(now: int): (c: int)
    ensures c == now - 2592000000
  {
    now - RetentionDays * MillisPerDay
  }

  /** `String.compareTo(b) < 0` as lexicographic order on code points, a proper
      prefix ordering first. Java compares UTF-16 code units, which differs
      only when both strings hold a character from U+D800 upward at the first
      difference; the `yyyy-MM-dd` date keys compared here are ASCII, where
      the two orders agree. */
  predicate StringLess(a: string, b: string)
    decreases |a|
  {
    if |a| == 0 then |b| > 0
    else if |b| == 0 then false
    else if a[0] != b[0] then a[0] < b[0]
    else StringLess(a[1..], b[1..])
  }

  /** The string order is a strict total order. */
  lemma {:induction false} StringLessStrictTotal(a: string, b: string, c: string)
    ensures !StringLess(a, a)
    ensures a != b ==> StringLess(a, b) || StringLess(b, a)
    ensures StringLess(a, b) ==> !StringLess(b, a)
    ensures StringLess(a, b) && StringLess(b, c) ==> StringLess(a, c)
    decreases |a|
  {
    if |a| > 0 && |b| > 0 && |c| > 0 {
      StringLessStrictTotal(a[1..], b[1..], c[1..]);
      if a[0] == b[0] && a[1..] != b[1..] {
        assert a == [a[0]] + a[1..] && b == [b[0]] + b[1..];
      }
    } else if |a| > 0 && |b| > 0 {
      StringLessStrictTotal(a[1..], b[1..], a[1..]);
      if a[0] == b[0] && a[1..] != b[1..] {
        assert a == [a[0]] + a[1..] && b == [b[0]] + b[1..];
      }
    } else if |a| > 0 {
      StringLessStrictTotal(a[1..], a[1..], a[1..]);
    }
  }

  /** One stored child under a parent key (a warehouse for alerts, a user for
      notifications). `data` is None when the record is null. */
  datatype StoredItem = StoredItem(parentKey: string, key: string, data: Option<Record>)

  /** The numeric timestamp of a record, read as `longValue()`. */
  function TimestampOf(data: Record): Option<int> {
    match NumberField(data, "timestamp")
    case None => None
    case Some(t) => Some(LongValue(t))
  }

  /** An alert is deleted when its timestamp is numeric and before the cutoff,
      whether or not it was acknowledged. */
  predicate AlertExpired(data: Option<Record>, cutoff: int) {
    data.Some? && TimestampOf(data.value).Some? && TimestampOf(data.value).value < cutoff
  }

  /** A notification is deleted only when it is marked read (a boolean true)
      and its timestamp is numeric and before the cutoff. */
  predicate NotificationExpired(data: Option<Record>, cutoff: int) {
    && data.Some?
    && "read" in data.value && data.value["read"] == Bool(true)
    && TimestampOf(data.value).Some? && TimestampOf(data.value).value < cutoff
  }

  datatype Collection = AlertCollection | NotificationCollection

  predicate Expired(kind: Collection, data: Option<Record>, cutoff: int) {
    match kind
    case AlertCollection => AlertExpired(data, cutoff)
    case NotificationCollection => NotificationExpired(data, cutoff)
  }

  /** The items a sweep of one collection deletes, in scan order. */
  function SweepItems(kind: Collection, items: seq<StoredItem>, cutoff: int): (deleted: seq<StoredItem>)
    ensures forall it :: it in deleted <==> it in items && Expired(kind, it.data, cutoff)
    ensures |deleted| <= |items|
  {
    if |items| == 0 then []
    else
      var rest := SweepItems(kind, items[1..], cutoff);
      assert forall it :: it in items <==> it == items[0] || it in items[1..];
      if Expired(kind, items[0].data, cutoff) then [items[0]] + rest else rest
  }

  /** The date partitions a sweep deletes: those whose key sorts before the cutoff date. */
  function SweepPartitions(dates: seq<string>, cutoffDate: string): (deleted: seq<string>)
    ensures forall d :: d in deleted <==> d in dates && StringLess(d, cutoffDate)
    ensures |deleted| <= |dates|
  {
    if |dates| == 0 then []
    else
      var rest := SweepPartitions(dates[1..], cutoffDate);
      assert forall d :: d in dates <==> d == dates[0] || d in dates[1..];
      if StringLess(dates[0], cutoffDate) then [dates[0]] + rest else rest
  }

  /** Everything one cleanup run deletes. */
  datatype DeletionPlan = DeletionPlan(
    partitions: seq<string>,
    alerts: seq<StoredItem>,
    notifications: seq<StoredItem>)

  /** `scheduleDataCleanup`'s run at clock value `now`: the cutoff instant is
      30 days back, and the cutoff date is that instant's date key. */
  function RetentionSweep(now: int, cal: Calendar, dates: seq<string>,
                          alerts: seq<StoredItem>, notifications: seq<StoredItem>): (plan: DeletionPlan)
    ensures forall d :: d in plan.partitions <==> d in dates && StringLess(d, cal.dateKey(now - 2592000000))
    ensures forall it :: it in plan.alerts <==> it in alerts && AlertExpired(it.data, now - 2592000000)
    ensures forall it :: it in plan.notifications <==>
              it in notifications && NotificationExpired(it.data, now - 2592000000)
  {
    var cutoff := Cutoff(now);
    DeletionPlan(SweepPartitions(dates, cal.dateKey(cutoff)),
                 SweepItems(AlertCollection, alerts, cutoff),
                 SweepItems(NotificationCollection, notifications, cutoff))
  }

  /** An unread notification is never deleted, however old; a read one older
      than the cutoff always is. */
  lemma UnreadNotificationsSurvive(now: int, cal: Calendar, dates: seq<string>,
                                   alerts: seq<StoredItem>, notifications: seq<StoredItem>, it: StoredItem)
    requires it in notifications
    requires it.data.Some?
    ensures !("read" in it.data.value && it.data.value["read"] == Bool(true)) ==>
              it !in RetentionSweep(now, cal, dates, alerts, notifications).notifications
    ensures NotificationExpired(it.data, Cutoff(now)) ==>
              it in RetentionSweep(now, cal, dates, alerts, notifications).notifications
  {
  }

  /** Whether an alert was acknowledged plays no part in its deletion. */
  lemma AcknowledgementIrrelevant(data: Record, acknowledged: Value, cutoff: int)
    ensures AlertExpired(Some(data["acknowledged" := acknowledged]), cutoff) == AlertExpired(Some(data), cutoff)
  {
    assert NumberField(data["acknowledged" := acknowledged], "timestamp") == NumberField(data, "timestamp");
  }

  /** What survives a sweep is never deleted by a second sweep with the same
      cutoff: overlapping cleanup runs do not interfere. */
  lemma {:induction false} SweepIdempotent(kind: Collection, items: seq<StoredItem>, cutoff: int)
    ensures var survivors := Survivors(kind, items, cutoff);
            SweepItems(kind, survivors, cutoff) == []
  {
    if |items| > 0 {
      SweepIdempotent(kind, items[1..], cutoff);
      if !Expired(kind, items[0].data, cutoff) {
        assert Survivors(kind, items, cutoff)[1..] == Survivors(kind, items[1..], cutoff);
      }
    }
  }

  /** The items a sweep keeps, in order. */
  function Survivors(kind: Collection, items: seq<StoredItem>, cutoff: int): (kept: seq<StoredItem>)
    ensures forall it :: it in kept <==> it in items && !Expired(kind, it.data, cutoff)
    ensures |kept| + |SweepItems(kind, items, cutoff)| == |items|
  {
    assert |items| > 0 ==> forall it :: it in items <==> it == items[0] || it in items[1..];
    if |items| == 0 then []
    else if Expired(kind, items[0].data, cutoff) then Survivors(kind, items[1..], cutoff)
    else [items[0]] + Survivors(kind, items[1..], cutoff)
  }

  /** A record deleted at one cutoff is deleted at any later cutoff. */
  lemma ExpiryMonotone(kind: Collection, data: Option<Record>, cutoff: int, later: int)
    requires cutoff <= later
    ensures Expired(kind, data, cutoff) ==> Expired(kind, data, later)
  {
  }
}

=== FILE: routing.dfy ===
/** The notification router: which cached users receive a notification for
    an alert on a warehouse. */
module Routing {
  import opened Common
  import opened Users
  import opened Alerts

  /** The preference consulted for an alert of the given severity. */
  function PreferenceKey(s: Severity): (key: string)
    ensures key in DefaultPreferences() && DefaultPreferences()[key]
    ensures key == "critical_alerts" <==> s == Critical
    ensures key == "warning_alerts" <==> s == High || s == Warning
  {
    match s
    case Critical => "critical_alerts"
    case High => "warning_alerts"
    case Warning => "warning_alerts"
    case Info => "email_alerts"
  }

  /** `shouldNotifyUser`: a null or inactive user is never notified; otherwise
      the preference for the alert's severity decides. */
  predicate ShouldNotifyUser(u: Option<User>, a: Alert) {
    u.Some? && u.value.active && ShouldReceiveNotification(u.value, PreferenceKey(a.severity))
  }

  /** A constructed user, active by construction, is notified of every alert. */
  lemma NewUserNotifiedOfEveryAlert(uid: string, role: Option<Role>, a: Alert)
    ensures ShouldNotifyUser(Some(NewUser(uid, None, None, role)), a)
  {
  }

  /** `order` lists every cache key exactly once: the iteration order of the
      cache's values, which the model leaves open. */
  predicate Enumerates(order: seq<string>, cache: map<string, User>) {
    && NoDuplicates(order)
    && (forall k :: k in order ==> k in cache)
    && (forall k :: k in cache ==> k in order)
  }

  /** The non-owner branch of `sendUserNotifications`, over the uids in `order`. */
  function OtherRecipients(cache: map<string, User>, order: seq<string>, ownerId: string,
                           warehouseId: string, a: Alert): (r: seq<string>)
    requires KeyedByUid(cache)
    requires forall k :: k in order ==> k in cache
    ensures forall k :: k in r ==> k in order
    ensures forall k :: k in r <==>
              && k in order
              && cache[k].active
              && k != ownerId
              && CanAccessWarehouse(cache[k], warehouseId)
              && ShouldNotifyUser(Some(cache[k]), a)
    ensures NoDuplicates(order) ==> NoDuplicates(r)
  {
    if |order| == 0 then []
    else
      var u := cache[order[0]];
      var rest := OtherRecipients(cache, order[1..], ownerId, warehouseId, a);
      assert forall k :: k in order <==> k == order[0] || k in order[1..];
      NoDuplicatesTail(order);
      if u.active && u.uid != ownerId && CanAccessWarehouse(u, warehouseId) && ShouldNotifyUser(Some(u), a) then
        [order[0]] + rest
      else
        rest
  }

  /** A user is selected for an alert on `warehouseId` whose owner is `ownerId`:
      active, its preference permits the severity, and it is either the owner
      (whose assignments are not checked) or may access the warehouse. */
  predicate Selected(cache: map<string, User>, ownerId: string, warehouseId: string, a: Alert, uid: string) {
    && uid in cache
    && cache[uid].active
    && ShouldReceiveNotification(cache[uid], PreferenceKey(a.severity))
    && (uid == ownerId || CanAccessWarehouse(cache[uid], warehouseId))
  }

  /** `sendUserNotifications`: the uids notified for one alert, the owner first.
      A config without an owner id makes the cache lookup throw, which the
      caller swallows, so nobody is notified. */
  function Recipients(cache: map<string, User>, order: seq<string>, ownerId: Option<string>,
                      warehouseId: string, a: Alert): (r: seq<string>)
    requires KeyedByUid(cache)
    requires Enumerates(order, cache)
    ensures ownerId.None? ==> r == []
    ensures ownerId.Some? ==> forall uid :: uid in r <==> Selected(cache, ownerId.value, warehouseId, a, uid)
    ensures NoDuplicates(r)
    ensures ownerId.Some? && ownerId.value in r ==> r[0] == ownerId.value
  {
    match ownerId
    case None => []
    case Some(oid) =>
      var owner := if oid in cache then Some(cache[oid]) else None;
      var others := OtherRecipients(cache, order, oid, warehouseId, a);
      if ShouldNotifyUser(owner, a) then
        assert forall i :: 0 <= i < |others| ==> others[i] != oid by {
          forall i | 0 <= i < |others| ensures others[i] != oid {
            assert others[i] in others;
          }
        }
        [oid] + others
      else others
  }

  /** A non-admin user restricted to other warehouses, and not the owner, is
      never notified. */
  lemma RestrictedUserNotNotified(cache: map<string, User>, order: seq<string>, ownerId: string,
                                  warehouseId: string, a: Alert, uid: string)
    requires KeyedByUid(cache)
    requires Enumerates(order, cache)
    requires uid in cache && uid != ownerId
    requires cache[uid].role != Some(Admin)
    requires cache[uid].assignedWarehouses.Some? && |cache[uid].assignedWarehouses.value| > 0
    requires warehouseId !in cache[uid].assignedWarehouses.value
    ensures uid !in Recipients(cache, order, Some(ownerId), warehouseId, a)
  {
  }
}

=== FILE: users.dfy ===
/** The user model: roles and their permission table, warehouse access
    scoping, notification preferences, and the loader that turns stored user
    records into the monitoring system's user cache. */
module Users {
  import opened Common

  // ---------------------------------------------------------------------
  // Roles
  // ---------------------------------------------------------------------

  datatype Role = Admin | Operator | Viewer

  /** The role's stored string value. */
  function RoleValue(r: Role): string {
    match r
    case Admin => "admin"
    case Operator => "operator"
    case Viewer => "viewer"
  }

  /** ADMIN > OPERATOR > VIEWER. */
  function RolePriority(r: Role): int {
    match r
    case Admin => 3
    case Operator => 2
    case Viewer => 1
  }

  predicate IsLowerAsciiWord(t: string) {
    forall i :: 0 <= i < |t| ==> 'a' <= t[i] <= 'z'
  }

  /** Java's per-character `equalsIgnoreCase` test of `c` against a lower-case
      ASCII letter `t`: the letter itself, its upper-case form, and the
      non-ASCII characters whose Java case mapping lands on that letter
      (dotted and dotless I, the Kelvin sign, the long s). */
  predicate CharMatchesIgnoreCase(c: char, t: char)
    requires 'a' <= t <= 'z'
  {
    || c == t
    || c as int == t as int - 32
    || (t == 'i' && (c == '\U{0130}' || c == '\U{0131}'))
    || (t == 'k' && c == '\U{212A}')
    || (t == 's' && c == '\U{017F}')
  }

  /** `s.equalsIgnoreCase(t)` for a lower-case ASCII word `t`. */
  predicate EqualsIgnoreCase(s: string, t: string)
    requires IsLowerAsciiWord(t)
  {
    |s| == |t| && forall i :: 0 <= i < |s| ==> CharMatchesIgnoreCase(s[i], t[i])
  }

  /** `UserRole.fromString`: the first role whose value matches ignoring case;
      a null or unknown string, "viewer" among them, falls back to VIEWER. */
  function RoleFromString(s: Option<string>): (r: Role)
    ensures r == Admin <==> s.Some? && EqualsIgnoreCase(s.value, "admin")
    ensures r == Operator <==> s.Some? && EqualsIgnoreCase(s.value, "operator")
    ensures r == Viewer <==>
              (s.None? || (!EqualsIgnoreCase(s.value, "admin") && !EqualsIgnoreCase(s.value, "operator")))
  {
    match s
    case None => Viewer
    case Some(v) =>
      if EqualsIgnoreCase(v, "admin") then Admin
      else if EqualsIgnoreCase(v, "operator") then Operator
      else Viewer
  }

  function UpperAscii(s: string): (u: string)
    ensures |u| == |s|
  {
    seq(|s|, i requires 0 <= i < |s| => if 'a' <= s[i] <= 'z' then (s[i] as int - 32) as char else s[i])
  }

  /** Parsing a role's own value gives the role back, in any ASCII case. */
  lemma RoleValueRoundTrip(r: Role)
    ensures RoleFromString(Some(RoleValue(r))) == r
    ensures RoleFromString(Some(UpperAscii(RoleValue(r)))) == r
  {
    assert !EqualsIgnoreCase(RoleValue(r), "admin") ==> r != Admin;
    assert !EqualsIgnoreCase(UpperAscii(RoleValue(r)), "admin") ==> r != Admin;
  }

  // ---------------------------------------------------------------------
  // Permissions
  // ---------------------------------------------------------------------

  datatype Permission =
    | AddWarehouse | EditWarehouse | DeleteWarehouse | ManageUsers | ViewReports
    | AcknowledgeAlerts | ExportData | ConfigureThresholds | ViewAnalytics

  /** The permission's name as `hasPermission` spells it. */
  function PermissionName(p: Permission): string {
    match p
    case AddWarehouse => "add_warehouse"
    case EditWarehouse => "edit_warehouse"
    case DeleteWarehouse => "delete_warehouse"
    case ManageUsers => "manage_users"
    case ViewReports => "view_reports"
    case AcknowledgeAlerts => "acknowledge_alerts"
    case ExportData => "export_data"
    case ConfigureThresholds => "configure_thresholds"
    case ViewAnalytics => "view_analytics"
  }

  function ParsePermission(name: string): (p: Option<Permission>)
    ensures p.Some? ==> PermissionName(p.value) == name
    ensures p.None? ==> forall q: Permission :: PermissionName(q) != name
  {
    if name == "add_warehouse" then Some(AddWarehouse)
    else if name == "edit_warehouse" then Some(EditWarehouse)
    else if name == "delete_warehouse" then Some(DeleteWarehouse)
    else if name == "manage_users" then Some(ManageUsers)
    else if name == "view_reports" then Some(ViewReports)
    else if name == "acknowledge_alerts" then Some(AcknowledgeAlerts)
    else if name == "export_data" then Some(ExportData)
    else if name == "configure_thresholds" then Some(ConfigureThresholds)
    else if name == "view_analytics" then Some(ViewAnalytics)
    else None
  }

  /** The role-to-permission table (the role's `can*` methods). */
  predicate RoleAllows(r: Role, p: Permission) {
    match p
    case AddWarehouse => r == Admin || r == Operator
    case EditWarehouse => r == Admin || r == Operator
    case DeleteWarehouse => r == Admin
    case ManageUsers => r == Admin
    case ViewReports => true
    case AcknowledgeAlerts => r == Admin || r == Operator
    case ExportData => r == Admin
    case ConfigureThresholds => r == Admin
    case ViewAnalytics => r == Admin || r == Operator
  }

  /** Permissions only grow with role priority; VIEWER may only view reports,
      ADMIN may do everything. */
  lemma PermissionsMonotone(r1: Role, r2: Role, p: Permission)
    requires RolePriority(r1) <= RolePriority(r2)
    ensures RoleAllows(r1, p) ==> RoleAllows(r2, p)
    ensures RoleAllows(Viewer, p) <==> p == ViewReports
    ensures RoleAllows(Admin, p)
  {
  }

  // ---------------------------------------------------------------------
  // Users
  // ---------------------------------------------------------------------

  /** A user. `None` preferences or assignments are the source's null fields. */
  datatype User = User(
    uid: string,
    email: Option<string>,
    name: Option<string>,
    role: Option<Role>,
    active: bool,
    notificationPreferences: Option<map<string, bool>>,
    assignedWarehouses: Option<seq<string>>)

  /** The preferences a newly constructed user starts with. */
  function DefaultPreferences(): map<string, bool> {
    map["email_alerts" := true, "critical_alerts" := true, "warning_alerts" := true,
        "daily_reports" := false, "weekly_summary" := false]
  }

  /** The four-argument constructor: active, default preferences, no assignments. */
  function NewUser(uid: string, email: Option<string>, name: Option<string>, role: Option<Role>): (u: User)
    ensures u.uid == uid && u.email == email && u.name == name && u.role == role
    ensures u.active
    ensures u.assignedWarehouses == Some([])
    ensures ShouldReceiveNotification(u, "email_alerts")
    ensures ShouldReceiveNotification(u, "critical_alerts")
    ensures ShouldReceiveNotification(u, "warning_alerts")
    ensures !ShouldReceiveNotification(u, "daily_reports")
    ensures !ShouldReceiveNotification(u, "weekly_summary")
    ensures forall k :: k !in DefaultPreferences() ==> ShouldReceiveNotification(u, k)
  {
    User(uid, email, name, role, true, Some(DefaultPreferences()), Some([]))
  }

  /** `getRoleString`: the role's value, "viewer" when the role is null. */
  function RoleString(u: User): (s: string)
    ensures RoleFromString(Some(s)) == u.role.GetOr(Viewer)
    ensures u.role.None? ==> s == "viewer"
    ensures u.role.Some? ==> s == RoleValue(u.role.value)
  {
    RoleValueRoundTrip(u.role.GetOr(Viewer));
    if u.role.Some? then RoleValue(u.role.value) else "viewer"
  }

  /** `setRoleString`: parse with the VIEWER fallback, so the role is never null afterwards. */
  function SetRoleString(u: User, s: Option<string>): (u': User)
    ensures u'.role.Some? && u'.role.value == RoleFromString(s)
    ensures u' == u.(role := u'.role)
  {
    u.(role := Some(RoleFromString(s)))
  }

  /** `hasPermission`: inactive users, users without a role and unknown
      permission names get nothing; otherwise the role's table entry decides. */
  function HasPermission(u: User, permission: string): (b: bool)
    ensures b <==> u.active && u.role.Some? &&
                   exists p: Permission :: PermissionName(p) == permission && RoleAllows(u.role.value, p)
  {
    if !u.active || u.role.None? then false
    else
      match ParsePermission(permission)
      case None => false
      case Some(p) => RoleAllows(u.role.value, p)
  }

  /** No restriction list, or an empty one, means access to every warehouse. */
  predicate Unrestricted(u: User) {
    u.assignedWarehouses.None? || |u.assignedWarehouses.value| == 0
  }

  /** `canAccessWarehouse`. */
  function CanAccessWarehouse(u: User, warehouseId: string): (b: bool)
    ensures u.role == Some(Admin) ==> b
    ensures Unrestricted(u) ==> b
    ensures !Unrestricted(u) && u.role != Some(Admin) ==> (b <==> warehouseId in u.assignedWarehouses.value)
  {
    if u.role == Some(Admin) then true
    else if Unrestricted(u) then true
    else warehouseId in u.assignedWarehouses.value
  }

  /** `assignWarehouse`: create the list if null, append the id if absent. */
  function AssignWarehouse(u: User, warehouseId: string): (u': User)
    ensures u'.assignedWarehouses.Some?
    ensures warehouseId in u'.assignedWarehouses.value
    ensures forall w :: w in u'.assignedWarehouses.value <==>
                          w == warehouseId || (u.assignedWarehouses.Some? && w in u.assignedWarehouses.value)
    ensures u.assignedWarehouses.Some? && warehouseId in u.assignedWarehouses.value ==> u' == u
    ensures u.assignedWarehouses.Some? && warehouseId !in u.assignedWarehouses.value ==>
              u'.assignedWarehouses.value == u.assignedWarehouses.value + [warehouseId]
    ensures u.assignedWarehouses.None? ==> u'.assignedWarehouses.value == [warehouseId]
    ensures u.assignedWarehouses.Some? && NoDuplicates(u.assignedWarehouses.value) ==>
              NoDuplicates(u'.assignedWarehouses.value)
    ensures u' == u.(assignedWarehouses := u'.assignedWarehouses)
  {
    var ws := u.assignedWarehouses.GetOr([]);
    if warehouseId in ws then u.(assignedWarehouses := Some(ws))
    else u.(assignedWarehouses := Some(ws + [warehouseId]))
  }

  /** Assigning the same warehouse twice is the same as assigning it once. */
  lemma AssignIdempotent(u: User, warehouseId: string)
    ensures AssignWarehouse(AssignWarehouse(u, warehouseId), warehouseId) == AssignWarehouse(u, warehouseId)
  {
  }

  /** Java's `List.remove(Object)`: drop the first occurrence of `x`, if any. */
  function RemoveFirst(s: seq<string>, x: string): (r: seq<string>)
    ensures x !in s ==> r == s
    ensures x in s ==> |r| == |s| - 1
    ensures multiset(r) == multiset(s) - multiset{x}
  {
    if |s| == 0 then s
    else
      assert s == [s[0]] + s[1..];
      if s[0] == x then s[1..]
      else [s[0]] + RemoveFirst(s[1..], x)
  }

  /** `unassignWarehouse`: a null list stays null, otherwise the first
      occurrence of the id is removed. */
  function UnassignWarehouse(u: User, warehouseId: string): (u': User)
    ensures u.assignedWarehouses.None? ==> u' == u
    ensures u.assignedWarehouses.Some? ==>
              && u'.assignedWarehouses.Some?
              && multiset(u'.assignedWarehouses.value)
                 == multiset(u.assignedWarehouses.value) - multiset{warehouseId}
    ensures u.assignedWarehouses.Some? && NoDuplicates(u.assignedWarehouses.value) ==>
              warehouseId !in u'.assignedWarehouses.value
    ensures u' == u.(assignedWarehouses := u'.assignedWarehouses)
  {
    match u.assignedWarehouses
    case None => u
    case Some(ws) =>
      var ws' := RemoveFirst(ws, warehouseId);
      NoDuplicatesCount(ws, warehouseId);
      assert warehouseId in ws' ==> multiset(ws')[warehouseId] > 0;
      u.(assignedWarehouses := Some(ws'))
  }

  lemma {:induction false} NoDuplicatesCount(s: seq<string>, x: string)
    ensures NoDuplicates(s) ==> multiset(s)[x] <= 1
  {
    if |s| > 0 && NoDuplicates(s) {
      assert s == [s[0]] + s[1..];
      NoDuplicatesTail(s);
      NoDuplicatesCount(s[1..], x);
    }
  }

  /** Removing the only assigned warehouse empties the list, which lifts every
      restriction: the user can then access all warehouses. */
  lemma UnassignLastWidensAccess(u: User, warehouseId: string, other: string)
    requires u.assignedWarehouses == Some([warehouseId])
    ensures !CanAccessWarehouse(u, other) || other == warehouseId || u.role == Some(Admin)
    ensures CanAccessWarehouse(UnassignWarehouse(u, warehouseId), other)
  {
    assert RemoveFirst([warehouseId], warehouseId) == [];
  }

  /** A stored list holding an id twice keeps one copy after a single unassign. */
  lemma UnassignKeepsDuplicate(u: User, warehouseId: string)
    requires u.assignedWarehouses == Some([warehouseId, warehouseId])
    ensures UnassignWarehouse(u, warehouseId).assignedWarehouses == Some([warehouseId])
  {
  }

  /** `setNotificationPreference`: create the map if null, then store the value. */
  function SetNotificationPreference(u: User, key: string, value: bool): (u': User)
    ensures u'.notificationPreferences.Some?
    ensures u' == u.(notificationPreferences := u'.notificationPreferences)
  {
    var prefs := u.notificationPreferences.GetOr(map[]);
    u.(notificationPreferences := Some(prefs[key := value]))
  }

  /** `shouldReceiveNotification`: a null map or a missing key means yes. */
  predicate ShouldReceiveNotification(u: User, key: string) {
    match u.notificationPreferences
    case None => true
    case Some(prefs) => if key in prefs then prefs[key] else true
  }

  /** After setting a preference it reads back as set, and every other
      preference reads as before. */
  lemma PreferenceSetGet(u: User, key: string, value: bool, other: string)
    requires other != key
    ensures ShouldReceiveNotification(SetNotificationPreference(u, key, value), key) == value
    ensures ShouldReceiveNotification(SetNotificationPreference(u, key, value), other)
            == ShouldReceiveNotification(u, other)
  {
  }

  /** `isValid`: uid, email and name present and non-empty, role present. */
  predicate IsValid(u: User) {
    && |u.uid| > 0
    && u.email.Some? && |u.email.value| > 0
    && u.name.Some? && |u.name.value| > 0
    && u.role.Some?
  }

  /** `isAccountLocked`: exactly the inactive accounts. */
  predicate IsAccountLocked(u: User) {
    !u.active
  }

  /** A constructed user is valid exactly when its identifying strings are
      non-empty and it has a role, and a constructed user is never locked. */
  lemma NewUserValidity(uid: string, email: string, name: string, role: Option<Role>)
    ensures IsValid(NewUser(uid, Some(email), Some(name), role))
            <==> |uid| > 0 && |email| > 0 && |name| > 0 && role.Some?
    ensures !IsAccountLocked(NewUser(uid, Some(email), Some(name), role))
  {
  }

  // ---------------------------------------------------------------------
  // Loading the user cache from stored records
  // ---------------------------------------------------------------------

  /** A child of a stored user read with a typed `getValue`: missing (null),
      of the expected shape, or of another shape, in which case the read throws. */
  datatype Child<T> = Missing | Typed(value: T) | Mistyped {
    function OrElse(default: T): T {
      match this
      case Typed(v) => v
      case _ => default
    }
  }

  /** One stored user: its key, its top-level fields (None when the record
      is null), and its preference and assigned-warehouse children. */
  datatype StoredUser = StoredUser(
    key: string,
    data: Option<Record>,
    preferences: Child<map<string, bool>>,
    warehouses: Child<seq<string>>)

  /** The cast `(String) userData.get(f)` succeeds: the field is absent or a string. */
  predicate CastsToString(data: Record, f: string) {
    f !in data || data[f].Text?
  }

  function StringField(data: Record, f: string): Option<string>
    requires CastsToString(data, f)
  {
    if f in data then Some(data[f].s) else None
  }

  /** Build one user from its stored record. `None` when the record is null,
      a string cast fails, or a preference or assignment child has the wrong
      shape (the exception is caught and the record skipped). The role goes
      through `setRoleString`. The stored preference map REPLACES the
      constructor defaults; a missing one becomes an empty map. */
  function LoadUser(s: StoredUser): (r: Option<User>)
    ensures r.Some? <==>
              && s.data.Some? && CastsToString(s.data.value, "email")
              && CastsToString(s.data.value, "name") && CastsToString(s.data.value, "role")
              && !s.preferences.Mistyped? && !s.warehouses.Mistyped?
    ensures r.Some? ==> r.value.uid == s.key
    ensures r.Some? ==> r.value.role == Some(RoleFromString(StringField(s.data.value, "role")))
    ensures r.Some? ==> r.value.email == StringField(s.data.value, "email")
    ensures r.Some? ==> r.value.name == StringField(s.data.value, "name")
    ensures r.Some? ==> r.value.notificationPreferences == Some(s.preferences.OrElse(map[]))
    ensures r.Some? ==> r.value.assignedWarehouses == Some(s.warehouses.OrElse([]))
    ensures r.Some? ==>
              (r.value.active <==> !("isActive" in s.data.value && s.data.value["isActive"] == Bool(false)))
  {
    match s.data
    case None => None
    case Some(data) =>
      if !CastsToString(data, "email") || !CastsToString(data, "name") || !CastsToString(data, "role") then None
      else if s.preferences.Mistyped? || s.warehouses.Mistyped? then None
      else
        var active := if "isActive" in data && data["isActive"].Bool? then data["isActive"].b else true;
        var u := User(s.key, StringField(data, "email"), StringField(data, "name"), None, active,
                      Some(s.preferences.OrElse(map[])), Some(s.warehouses.OrElse([])));
        Some(SetRoleString(u, StringField(data, "role")))
  }

  /** A user loaded without stored preferences accepts every notification,
      including the daily reports a constructed user declines. */
  lemma LoadedUserWithoutPreferences(s: StoredUser, key: string)
    requires s.preferences.Missing?
    requires LoadUser(s).Some?
    ensures ShouldReceiveNotification(LoadUser(s).value, key)
    ensures !ShouldReceiveNotification(NewUser(s.key, None, None, None), "daily_reports")
  {
  }

  /** Every cache entry is the user whose uid is its key. */
  predicate KeyedByUid(cache: map<string, User>) {
    forall k :: k in cache ==> cache[k].uid == k
  }

  predicate Loads(c: StoredUser, k: string) {
    c.key == k && LoadUser(c).Some?
  }

  /** Some child of the snapshot with key `k` loads. */
  ghost predicate LoadsKey(children: seq<StoredUser>, k: string) {
    exists i :: 0 <= i < |children| && Loads(children[i], k)
  }

  /** Child `i` loads and no later child with the same key loads, so its
      user is the one left in the cache. */
  predicate LastLoading(children: seq<StoredUser>, i: int)
    requires 0 <= i < |children|
  {
    && LoadUser(children[i]).Some?
    && forall j :: i < j < |children| && children[j].key == children[i].key ==> LoadUser(children[j]).None?
  }

  /** Rebuild the user cache from a full snapshot: clear, then put every child
      that loads; a child that fails is skipped without affecting the rest. */
  function LoadUserCache(children: seq<StoredUser>): (cache: map<string, User>)
    ensures KeyedByUid(cache)
    ensures forall k :: k in cache <==> LoadsKey(children, k)
  {
    if |children| == 0 then map[]
    else
      var rest := LoadUserCache(children[..|children| - 1]);
      var last := children[|children| - 1];
      match LoadUser(last)
      case None =>
        assert forall k :: LoadsKey(children, k) ==> LoadsKey(children[..|children| - 1], k) by {
          forall k | LoadsKey(children, k) ensures LoadsKey(children[..|children| - 1], k) {
            var i :| 0 <= i < |children| && Loads(children[i], k);
            assert children[..|children| - 1][i] == children[i];
          }
        }
        rest
      case Some(u) => rest[last.key := u]
  }

  /** One step of the rebuild: the last child's user, if it loads, is put
      over the cache of the children before it. */
  lemma LoadUserCacheStep(children: seq<StoredUser>)
    requires |children| > 0
    ensures var last := children[|children| - 1];
            var rest := LoadUserCache(children[..|children| - 1]);
            LoadUserCache(children) == if LoadUser(last).Some? then rest[last.key := LoadUser(last).value] else rest
  {
  }

  /** A child that is the last to load under its key stays so among the
      children before the final one, and the final one, if it loads, has
      another key. */
  lemma LastLoadingPrefix(children: seq<StoredUser>, i: int)
    requires 0 <= i < |children| - 1 && LastLoading(children, i)
    ensures LastLoading(children[..|children| - 1], i)
    ensures LoadUser(children[|children| - 1]).Some? ==> children[|children| - 1].key != children[i].key
  {
    var prefix := children[..|children| - 1];
    assert prefix[i] == children[i];
    forall j | i < j < |prefix| && prefix[j].key == prefix[i].key ensures LoadUser(prefix[j]).None? {
      assert prefix[j] == children[j];
    }
  }

  /** The cached user under a child's key is the one built from the last
      child with that key that loads. */
  lemma {:induction false} LoadUserCacheValues(children: seq<StoredUser>, i: int)
    requires 0 <= i < |children| && LastLoading(children, i)
    ensures children[i].key in LoadUserCache(children)
    ensures LoadUserCache(children)[children[i].key] == LoadUser(children[i]).value
    decreases |children|
  {
    LoadUserCacheStep(children);
    if i < |children| - 1 {
      LastLoadingPrefix(children, i);
      LoadUserCacheValues(children[..|children| - 1], i);
    }
  }

  /** In a snapshot, whose child keys are distinct, every child that loads is
      cached under its key as exactly the user built from it. */
  lemma LoadUserCacheEntries(children: seq<StoredUser>, i: int)
    requires forall a, b :: 0 <= a < b < |children| ==> children[a].key != children[b].key
    requires 0 <= i < |children| && LoadUser(children[i]).Some?
    ensures children[i].key in LoadUserCache(children)
    ensures LoadUserCache(children)[children[i].key] == LoadUser(children[i]).value
  {
    LoadUserCacheValues(children, i);
  }
}

=== FILE: warehouse.dfy ===
/** The two records the pipeline consumes, a warehouse's threshold
    configuration and a sensor reading, and the validators that admit them. */
module Warehouse {
  import opened Common

  /** Lowest and highest temperature (°C) a configuration may allow. */
  const ConfigTempFloor: real := -50.0
  const ConfigTempCeiling: real := 50.0
  /** Humidity (%) bounds for a configuration. */
  const ConfigHumidityFloor: real := 0.0
  const ConfigHumidityCeiling: real := 100.0
  /** Physically plausible sensor temperature (°C). */
  const ReadingTempFloor: real := -60.0
  const ReadingTempCeiling: real := 60.0
  /** How far (ms) a reading's timestamp may lie in the future. */
  const ClockSkewMillis: int := 60000

  /** A warehouse's threshold configuration. Audit timestamps, creator and
      last-reading fields are carried by the store and decide nothing here. */
  datatype WarehouseConfig = WarehouseConfig(
    id: string,
    name: Option<string>,
    location: Option<string>,
    storageType: Option<string>,
    minTemp: real,
    maxTemp: real,
    minHumidity: real,
    maxHumidity: real,
    userId: Option<string>,
    status: Option<string>)

  /** A sensor reading; `timestamp` is epoch milliseconds. */
  datatype SensorReading = SensorReading(
    temperature: real,
    humidity: real,
    timestamp: int,
    sensorId: Option<string>,
    batteryLevel: Option<string>)

  /** `String.trim().isEmpty()`: every character is at most U+0020. */
  predicate IsBlank(s: string) {
    forall i :: 0 <= i < |s| ==> s[i] <= ' '
  }

  /** `validateWarehouseConfig`, check by check in the source's order. */
  function ValidateWarehouseConfig(c: WarehouseConfig): (ok: bool)
    ensures ok <==>
              && c.name.Some? && !IsBlank(c.name.value)
              && c.minTemp < c.maxTemp
              && c.minHumidity < c.maxHumidity
              && ConfigTempFloor <= c.minTemp && c.maxTemp <= ConfigTempCeiling
              && ConfigHumidityFloor <= c.minHumidity && c.maxHumidity <= ConfigHumidityCeiling
    ensures ok ==> 0.0 < c.maxTemp - c.minTemp <= 100.0 && 0.0 < c.maxHumidity - c.minHumidity <= 100.0
  {
    if c.name.None? || IsBlank(c.name.value) then false
    else if c.minTemp >= c.maxTemp then false
    else if c.minHumidity >= c.maxHumidity then false
    else if c.minTemp < ConfigTempFloor || c.maxTemp > ConfigTempCeiling then false
    else if c.minHumidity < ConfigHumidityFloor || c.maxHumidity > ConfigHumidityCeiling then false
    else true
  }

  /** Validity does not depend on the id, which the handlers overwrite with the store key. */
  lemma ValidityIgnoresId(c: WarehouseConfig, id: string)
    ensures ValidateWarehouseConfig(c.(id := id)) == ValidateWarehouseConfig(c)
  {
  }

  /** `validateSensorReading` against the clock value `now` (epoch ms). */
  function ValidateSensorReading(r: SensorReading, now: int): (ok: bool)
    ensures ok <==>
              && ReadingTempFloor <= r.temperature <= ReadingTempCeiling
              && 0.0 <= r.humidity <= 100.0
              && r.timestamp <= now + ClockSkewMillis
  {
    if r.temperature < ReadingTempFloor || r.temperature > ReadingTempCeiling then false
    else if r.humidity < 0.0 || r.humidity > 100.0 then false
    else if r.timestamp > now + ClockSkewMillis then false
    else true
  }

  /** A reading that passes validation at one clock value still passes at any later one. */
  lemma ReadingValidityMonotoneInClock(r: SensorReading, now: int, later: int)
    requires now <= later
    ensures ValidateSensorReading(r, now) ==> ValidateSensorReading(r, later)
  {
  }
}
